=== FILE: README.md ===
# ARGONet forecasting models: index and alignment bookkeeping

A Dafny model of the core of `lib/forecastlib/models.py`, the module that
keeps a flu-forecasting unit's target, input arrays, calendar and
predictions lined up while it is processed, fitted, combined into an
ensemble and exported.

* `Geo_model` (module `GeoModels`) holds the shared dataset: the input
  sources, the target, the calendar, the prediction start date, the
  resolution and `model_list`. Its operations are modelled here:
  * `init_predictor` and `init_prediction_layer` create units from it.
  * `ensemble` stacks the members' predictions and registers one combined
    unit.
  * `save_predictions` re-slices the selected units so that they start at
    the prediction start date, and builds the exported table.
* `Predictor` (module `Predictors`) is a forecasting unit with its own copy
  of the dataset.
  * `data_process` transforms the target and the inputs, discards leading
    rows and builds the autoregressive block.
  * `predict` cuts the training window, calls the prediction engine,
    inverts the transform and pads the forecast with `2 * horizon` missing
    markers.
* `Ens_predictor` is the `Combined` variant of `GeoModels.Unit`. It has the
  same label, target, predictions and calendar shape as a forecasting unit.

Supporting modules:

* `Common` models Python's `s[k:]` and `s[:k]`, including negative and
  out-of-range bounds. It also holds the exceptions the methods raise, and
  `Outcome`: the state an object is left in when a method returns or
  raises.
* `Series` holds series and input blocks (NaN is a `None` cell), the
  horizon padding, `np.hstack`, and element-wise transforms.
* `Calendar` models dates as day numbers and `list.index`.

Mutation is modelled by value. A method becomes a function from the old
object to an `Outcome` holding the new one. When an exception escapes
part-way, the `Raised` state keeps the changes made before it.

Some code is called but not described: the logit-percent, inverse and log
transforms, `create_ar_stack`, the ARGO prediction engine and the ensemble
dispatcher. These are parameters, bundled in `Predictors.Externals`. A
transform or AR stack that raises is a `None` result. The model states how
these functions' inputs are cut and how their outputs are aligned, never
what they compute.

The comment at line 387 says the autoregressive block is shortened "to
match length of other inputs". Line 391 instead uses the length of
whichever key comes first in the dictionary's iteration order, and the
loop of lines 388-392 never ends when that key is 'ar'. The model keeps
both:

* `Predictors.ArTruncateAsWritten` is the loop as written, with the first
  key as a parameter; `Predictors.ArStepAsWritten` and
  `Predictors.DataProcessAsWritten` carry that parameter through.
* `Predictors.ArTruncate` is the intended cut.
* `Predictors.ArTruncateAgrees`, `Predictors.ArStepAgrees` and
  `Predictors.DataProcessAgrees` prove that the two agree whenever the
  first key is not 'ar' and the other sources have one length, which is
  what the loaders produce.

`Predictors.DataProcess` and everything built on it use the intended cut
(see Findings).

`init_predictor` returns the very object it appends to `model_list`, so a
caller's later `data_process` or `predict` through that reference changes
the list entry. `GeoModels.ProcessUnit` and `GeoModels.PredictUnit` model
such calls on the entry at a given position.

## Model

| member | source | states |
|---|---|---|
| GeoModels.InitPredictor | lib/forecastlib/models.py:168-179 | exactly one unit is appended and the rest of the list and the orchestrator are unchanged; the returned predictor carries the label, a copy of the shared inputs, target, calendar, start date, resolution and `verbose` flag, a reserve equal to its target, no transform and no predictions |
| GeoModels.ProcessUnit | lib/forecastlib/models.py:168-179 | `data_process` through the reference `init_predictor` returns processes that very list entry in place; every other entry and the orchestrator's other fields are unchanged |
| GeoModels.PredictUnit | lib/forecastlib/models.py:168-179 | `predict` through that reference replaces the entry by the predicted predictor when it returns, and leaves the whole list as it was exactly when `predict` raises, with `predict`'s error |
| GeoModels.InitThenRun | lib/forecastlib/models.py:168-201 | a unit created by `init_predictor` and then processed and predicted through the returned reference ends up exactly as a layer unit with the same specs, after the untouched earlier units; when `predict` raises, the entry keeps its processed state |
| GeoModels.InitPredictionLayer | lib/forecastlib/models.py:181-201 | too few labels raise IndexError before the list is replaced; otherwise the list holds `n` units (none for negative `n`) whether or not a unit raises; nothing but the list changes |
| GeoModels.RunLayerFrame | lib/forecastlib/models.py:198-201 | the loop over the units, completed or not, changes only the unit list and keeps its length |
| GeoModels.LayerStep | lib/forecastlib/models.py:199-201 | unit `i` returns only when both spec lists have an entry `i`, and then returns exactly as `predict` after `data_process` with those specs; a missing process spec raises IndexError with the unit untouched, and a missing predict spec raises IndexError after `data_process` has run |
| GeoModels.RunLayerUnits | lib/forecastlib/models.py:199-201 | a completed loop applied the step to every unit from `i` on, each to the unit as it was before the loop, left earlier units and the orchestrator's other fields alone |
| GeoModels.LayerRunsAlone | lib/forecastlib/models.py:196-201 | after a completed layer over fresh units, unit `i` is what its own step makes of a fresh predictor with label `i`, whatever the other units did |
| GeoModels.LayerUnitsAreIsolated | lib/forecastlib/models.py:181-201 | a layer that returns had a label and both specs for each of its `n` units (none for negative `n`), holds exactly that many units, and each is `data_process` then `predict` applied to its own fresh copy of the dataset |
| GeoModels.Select | lib/forecastlib/models.py:236 | selection raises TypeError exactly when the label argument cannot be searched and there is a unit to test; otherwise it picks, in list order and without repeats, exactly the units whose label is in the argument |
| GeoModels.FilterByNames | lib/forecastlib/models.py:283 | the selection depends on the labels only: two unit lists with the same labels select the same indices |
| GeoModels.MemberColumns | lib/forecastlib/models.py:237 | the columns exist exactly when every selected member has predictions; each column is that member's predictions without the first `2 * horizon` entries, in selection order; otherwise the error names a member without predictions |
| GeoModels.EnsembleStack | lib/forecastlib/models.py:236-240 | the stack builds exactly when the selection succeeds, is non-empty, every selected member has predictions, and all of them have one length once the `2 * horizon` padding is dropped; it then comes from the indices `Select` returns, all valid |
| GeoModels.MemberStackEntries | lib/forecastlib/models.py:237-240 | entry (t, a) of the stacked matrix is entry `2 * horizon + t` of member `a`'s predictions, and every row has one entry per member |
| GeoModels.EnsembleStackEntries | lib/forecastlib/models.py:236-240 | the ensemble's input matrix is the members' unpadded predictions side by side: row `t`, column `a` is entry `2 * horizon + t` of member `a` |
| GeoModels.Ensemble | lib/forecastlib/models.py:203-261 | the ensemble raises exactly when the members cannot be stacked, and then changes nothing; otherwise it appends exactly one unit, labelled with the ensemble label, and changes nothing else |
| GeoModels.EnsembleUnit | lib/forecastlib/models.py:241-261 | the new unit takes target and calendar from the first matching unit in list order, both shortened by `train_len` out of sample, and its predictions are `2 * horizon` missing markers followed by the dispatcher's output for the stacked matrix and that target |
| GeoModels.EnsembleAsWritten | lib/forecastlib/models.py:203-261 | as written, `ensemble` always raises and leaves the orchestrator as it was: with the stacking error when the members cannot be stacked, and with NameError for `argo_functions` otherwise |
| GeoModels.EnsembleAsWrittenNeverRegisters | lib/forecastlib/models.py:245-246 | as written, no call of `ensemble` adds a unit: once the stack builds it raises NameError for `argo_functions`, whereas the intended method adds one |
| GeoModels.SaveSelection | lib/forecastlib/models.py:278-286 | 'all', or a label argument that cannot be searched, exports every unit in list order; otherwise exactly the units whose label matches, in list order |
| GeoModels.ResliceUnit | lib/forecastlib/models.py:291-294 | the re-slice completes exactly when the start date is in the unit's calendar and the unit has predictions; it then cuts the calendar, the target and the predictions at the date's first index, so the calendar starts at that date; a missing date raises ValueError before anything changes; missing predictions raise TypeError after the calendar and target were already cut at that index; the label is kept |
| GeoModels.ResliceAtStart | lib/forecastlib/models.py:291-294 | a unit whose calendar already starts at the date and that has predictions is left exactly as it is |
| GeoModels.Reslice | lib/forecastlib/models.py:290-295 | the re-slice loop keeps the number of units (weaker than the loop's behaviour; see Left out) |
| GeoModels.ResliceKeeps | lib/forecastlib/models.py:290-295 | the export loop keeps every unit's label, whether or not it completes |
| GeoModels.ResliceEffect | lib/forecastlib/models.py:290-295 | a completed loop over increasing indices applied the per-unit re-slice once to each selected unit as it was before the loop |
| GeoModels.ResliceUntouched | lib/forecastlib/models.py:290-295 | a unit the loop does not select comes out as it went in, also when the loop raises |
| GeoModels.ResliceRaisedAt | lib/forecastlib/models.py:290-295 | a loop whose step raises at selected position `b`, every earlier step having returned, raises that error and leaves the partial export: earlier selected units re-sliced once, unit `b` in the state its step raised with, later selected units as they were |
| GeoModels.ResliceDoneIff | lib/forecastlib/models.py:290-295 | over increasing indices the loop completes exactly when every selected unit's own step returns |
| GeoModels.ResliceFixed | lib/forecastlib/models.py:290-295 | re-slicing units that the per-unit step leaves as they are completes and changes nothing |
| GeoModels.ResliceAligns | lib/forecastlib/models.py:288-295 | a completed loop at a date cut every selected unit's calendar, target and predictions at that date's index in its own calendar, and left the other units alone |
| GeoModels.Tabulate | lib/forecastlib/models.py:297-307 | the table's date column is the first selected unit's calendar, each date moved six days to the week's Saturday when asked; then that unit's target, then one column per selected unit holding its label and predictions, in selection order |
| GeoModels.SavePredictions | lib/forecastlib/models.py:263-308 | an export changes nothing but the unit list, and the list keeps its length (weaker than the method's behaviour; see Left out) |
| GeoModels.SaveLoop | lib/forecastlib/models.py:288-299 | the units after an export are those the loop left, and a table is produced exactly when the loop completed over a non-empty selection |
| GeoModels.SaveAligns | lib/forecastlib/models.py:288-295 | after a successful export every selected unit was cut at the prediction start date, so its calendar starts there and its target and predictions lost the same leading entries; the other units are unchanged |
| GeoModels.SaveColumns | lib/forecastlib/models.py:297-304 | the exported table is built from the re-sliced units and its first date is the prediction start date, or its Saturday when asked |
| GeoModels.SaveSelectsAgain | lib/forecastlib/models.py:279-295 | an export keeps the labels, so a second export selects the same units |
| GeoModels.SaveStartsAtDate | lib/forecastlib/models.py:291-292 | after a successful export each selected unit's calendar starts at the prediction start date and the unit has predictions |
| GeoModels.ResliceAtStartAll | lib/forecastlib/models.py:290-295 | the loop leaves units that already start at the date, and have predictions, unchanged |
| GeoModels.SaveIdempotent | lib/forecastlib/models.py:263-308 | exporting a second time with the same start date changes no unit and yields the same table |
| Predictors.MaxOf | lib/forecastlib/models.py:377 | `max` of a non-empty lag list is one of the lags and no lag exceeds it |
| Predictors.Discard | lib/forecastlib/models.py:375-377 | the autoregressive step is skipped exactly for a falsy `AR_terms` (absent, 0 or an empty list); otherwise the discard is the order itself or the largest lag |
| Predictors.TransformTargetStep | lib/forecastlib/models.py:349-357 | when the target transform is asked for, the flag is set exactly when every cell is present and in the transform's domain; the target is then transformed cell by cell and otherwise kept; nothing else changes |
| Predictors.TransformInputs | lib/forecastlib/models.py:359-373 | the Athenahealth source is logit-transformed and the Google Trends source log-transformed when asked for, present and transformable; each other source, and each failed transform, is kept; no source is added, removed or resized |
| Predictors.ArTruncate | lib/forecastlib/models.py:387-392 | the 'ar' block becomes a prefix of the stacked lags no longer than any other source, and as long as the stack or as the shortest other source |
| Predictors.ArTruncateAsWritten | lib/forecastlib/models.py:387-392 | as written, the loop never ends exactly when 'ar' is the first key and there are other keys; otherwise the block is a prefix of the stacked lags, cut to the length of the first key's source when there are other keys and left whole when 'ar' is alone |
| Predictors.ArLoopDivergesWhenArIsFirst | lib/forecastlib/models.py:388-392 | with sources 'ar' and 'ath' and 'ar' first in iteration order, the as-written loop does not terminate |
| Predictors.ArTruncateAgrees | lib/forecastlib/models.py:387-392 | when the other sources all have one length and the first key is not 'ar', the as-written loop and the intended cut give the same block |
| Predictors.OtherKey | lib/forecastlib/models.py:388 | a dictionary holding 'ar' has more than one key exactly when it holds a key other than 'ar', which is when the loop is entered |
| Predictors.ShiftAll | lib/forecastlib/models.py:378-379 | every source loses the same `d` leading rows and no source is added or removed |
| Predictors.ArStep | lib/forecastlib/models.py:375-400 | the autoregressive step cuts the calendar, target and reserve by the discard; it cuts every source but 'ar' by the discard; it adds 'ar' exactly when the stack is built, and keeps a previous 'ar' only shifted when it is not |
| Predictors.ArStepBlock | lib/forecastlib/models.py:384-392 | a built 'ar' block is a prefix of the stack, no longer than any other source, and as long as the stack or the shortest other source |
| Predictors.ArStepAsWritten | lib/forecastlib/models.py:375-400 | as written, the autoregressive step never ends exactly when the stack is built, 'ar' is the first key and there is another source; when no stack is built it is the intended step |
| Predictors.ArStepAgrees | lib/forecastlib/models.py:375-400 | with a first key other than 'ar' and the other sources of one length, the as-written step ends and equals the intended one |
| Predictors.DataProcess | lib/forecastlib/models.py:334-400 | `data_process` as intended always returns; it keeps the label, start date, resolution and predictions; it sets the transform flag exactly when the target transform is asked for and succeeds; the calendar and the reserve lose exactly the discard count |
| Predictors.DataProcessTarget | lib/forecastlib/models.py:349-400 | the processed target is the transformed target when that transform succeeds, otherwise the original, in both cases without the discarded rows |
| Predictors.DataProcessInputs | lib/forecastlib/models.py:359-380 | each source other than 'ar' loses the same leading rows as the calendar, and is transformed exactly when its transform is asked for and succeeds |
| Predictors.DataProcessArBlock | lib/forecastlib/models.py:383-392 | when the AR stack is built from the processed target, 'ar' is added and is a prefix of the stack no longer than any other source |
| Predictors.DataProcessKeepsAligned | lib/forecastlib/models.py:375-400 | if the calendar and every non-'ar' source are one row longer than the target and the reserve matches the target, `data_process` keeps all of that, for a discard no larger than the target |
| Predictors.ArDiscardAsWritten | lib/forecastlib/models.py:375-377 | as written, a non-empty string `AR_terms` raises TypeError at the slice, and any other argument gives the same discard as the intended model |
| Predictors.DataProcessAsWritten | lib/forecastlib/models.py:334-400 | as written, `data_process` raises TypeError exactly for a non-empty string `AR_terms`, after the transforms but before any row is discarded; it never returns exactly when it gets to build an AR stack, 'ar' is the first key and there is another source |
| Predictors.DataProcessAgrees | lib/forecastlib/models.py:334-400 | for any `AR_terms` but a non-empty string, a first key other than 'ar' and the other sources of one length, the as-written method returns what the intended one does |
| Predictors.DefaultArTermsRaises | lib/forecastlib/models.py:334-379 | called with its default `AR_terms`, the as-written method raises TypeError, whereas the intended method skips the autoregressive step and keeps the calendar, reserve and source names |
| Predictors.Lookup | lib/forecastlib/models.py:430 | the source list is built exactly when every named source exists, and holds them in order; otherwise KeyError names the first missing one |
| Predictors.Design | lib/forecastlib/models.py:426-430 | the design matrix builds exactly when the named sources (ath, gt, ar for 'all') exist, there is at least one, and all have one row count; it then has that many rows, and row `t` is row `t` of each named source joined in order |
| Predictors.TrainWidth | lib/forecastlib/models.py:432-437 | an explicit `train_len` is kept; the default is 104 exactly for weekly and 24 exactly for monthly data, and unresolved otherwise |
| Predictors.PlanWindow | lib/forecastlib/models.py:426-449 | the window is found only with a design matrix, a resolved width and the start date in the calendar, with `shift` its first index and `shift - train_len >= 0`; a failed design matrix raises its own error first and a missing start date raises ValueError next; with both in place, a `train_len` the resolution leaves unresolved raises at the subtraction; the assertion fails exactly when fewer than `train_len` dates precede the start date; the verbose in-sample print raises IndexError exactly when `shift - train_len` passes the assertion but is past the calendar's end; otherwise the window is always found |
| Predictors.NewPredictor | lib/forecastlib/models.py:318-329 | a new predictor holds the given label, inputs, calendar, start date, resolution and `verbose` flag, a reserve equal to its target, no transform and no predictions |
| Predictors.RunWindowFrame | lib/forecastlib/models.py:452-481 | a window changes only the targets, the calendar and the predictions: the reserve loses the rows before the training window, the calendar starts at `shift - train_len` in sample and `shift` out of sample, and the predictions are `2 * horizon` markers longer than the engine's output |
| Predictors.Predict | lib/forecastlib/models.py:402-491 | `predict` raises exactly when the window checks of lines 426-449 fail, and then leaves the predictor as it was; when it returns, predictions exist; label, start date and inputs never change |
| Predictors.PredictNeedsHistory | lib/forecastlib/models.py:442-449 | given a design matrix, a width and the start date in the calendar, `predict` fails its assertion, unchanged, exactly when the start date's index is below the width, and returns exactly when it is not and the verbose in-sample print stays inside the calendar |
| Predictors.PredictWeekly | lib/forecastlib/models.py:442-449 | on a weekly calendar whose start date is `k` weeks after the first date, `predict` returns exactly when `k` is at least the training width and the verbose in-sample print stays inside the calendar |
| Predictors.VerboseInSamplePrintRaises | lib/forecastlib/models.py:442-456 | with calendar [10, 17], start date 17, in sample and `train_len = -1`, `predict` raises IndexError(2) unchanged when verbose, and returns with an empty calendar when not |
| Predictors.PredictWeeklyCalendar | lib/forecastlib/models.py:442-456 | once `predict` returns on a weekly calendar, the calendar it leaves is weekly again, from the start date out of sample and from `train_len` weeks earlier in sample |
| Predictors.PredictSuffix | lib/forecastlib/models.py:442-456 | the calendar `predict` leaves is the old one cut at `shift - train_len` in sample and at `shift` out of sample |
| Predictors.PredictDone | lib/forecastlib/models.py:426-456 | a returning `predict` had the start date in the calendar at an index at least the width, a design matrix, and built its state from that window |
| Predictors.RunWindowTarget | lib/forecastlib/models.py:453-478 | the reported target is the target from `shift - train_len` on, inverted when transformed, and shortened by `train_len` more out of sample |
| Predictors.RunWindowOutOfSample | lib/forecastlib/models.py:452-478 | out of sample the calendar and the reported target both start at `shift` |
| Predictors.PredictOutOfSample | lib/forecastlib/models.py:439-478 | out of sample the calendar starts at the start date and the target (inverted when transformed) loses exactly `shift` leading entries, as many as the calendar |
| Predictors.RunWindowInSample | lib/forecastlib/models.py:452-478 | in sample the calendar, the reported target and the reserve all start at `shift - train_len` |
| Predictors.PredictInSample | lib/forecastlib/models.py:439-478 | in sample the calendar, the target and the reserve all start at the same index `shift - train_len` |
| Predictors.PredictRestoresReserve | lib/forecastlib/models.py:469-478 | for a fresh predictor, the check left commented out at line 474 holds after `data_process` and `predict`: in sample the inverted target equals the reserve; out of sample it is the reserve without the `train_len` entries cut at line 478 |
| Predictors.PredictReportsReserve | lib/forecastlib/models.py:452-478 | a predictor whose reported target is its reserve keeps them equal in sample, and out of sample reports the reserve without its first `train_len` entries |
| Predictors.DataProcessViewIsReserve | lib/forecastlib/models.py:349-357 | after `data_process` of a fresh predictor, the target inverted when transformed equals the reserve |
| Predictors.RunWindowPads | lib/forecastlib/models.py:463-481 | the predictions are the engine's output, inverted when the target was transformed, behind `2 * horizon` missing markers |
| Predictors.PredictPads | lib/forecastlib/models.py:463-481 | the predictions are exactly `2 * horizon` missing markers followed by the engine's output for the design matrix and target from `shift - train_len` on: unchanged, or inverted when the target was transformed |
| Predictors.PredictKeepsCalendarOffset | lib/forecastlib/models.py:452-478 | a calendar one entry longer than the target stays one entry longer after `predict`, in and out of sample |
| Series.Pad | lib/forecastlib/models.py:481 | padding puts exactly `2 * horizon` missing markers in front (none for a negative horizon) and keeps the series after them |
| Series.StripPad | lib/forecastlib/models.py:237 | stripping `2 * horizon` entries from a padded series gives back the unpadded one |
| Series.HStack | lib/forecastlib/models.py:240 | `np.hstack` succeeds exactly for a non-empty list of blocks with one row count, and row `t` is row `t` of each block in order |
| Series.StackColumns | lib/forecastlib/models.py:237-240 | side-by-side columns stack exactly when there is at least one and all have one length; entry (t, j) of the stack is entry `t` of column `j` |
| Series.TransformRoundTrip | lib/forecastlib/models.py:469-472 | inverting a successfully transformed series restores it exactly |
| Common.From | lib/forecastlib/models.py:379 | Python's `s[k:]`: never longer than `s`, exactly `k` entries shorter for `0 <= k <= len(s)`, empty past the end |
| Common.Upto | lib/forecastlib/models.py:391 | Python's `s[:k]`: never longer than `s`, exactly `k` entries for `0 <= k <= len(s)`, all of `s` past the end |
| Calendar.IndexOf | lib/forecastlib/models.py:442 | the index of a date is the first position holding it |
| Calendar.IndexOfWeekly | lib/forecastlib/models.py:442 | on a weekly calendar, the date `k` weeks after the first one is found at index `k` |
| Calendar.WeeklyAfter | lib/forecastlib/models.py:456 | a suffix of a weekly calendar cut at index `s` is the weekly calendar starting `s` weeks later |
| Calendar.IndexOfAfterSlice | lib/forecastlib/models.py:291-292 | after cutting a calendar at a date's index, that date sits at index 0 |
| Calendar.EndOfWeek | lib/forecastlib/models.py:299-300 | the Saturday column moves every date by exactly six days and keeps the column's length |

## Left out

- Data loading (`Geo_model.__init__` and the loaders, lines 86-166) is file
  I/O through loader functions that are not part of this model. A
  `GeoModel` starts from given arrays.
- The numerics of `logit_percent`, `inverse_logit_percent`, `gtlog` and
  `create_ar_stack` are floating point. They are function parameters; a
  transform either succeeds on a cell or raises.
- The ARGO engine (`make_predictions`, line 463) and the ensemble
  dispatcher are parameters that always return. Their own exceptions and
  their `**params` are not modelled.
- Metric reporting (lines 257 and 485) is left out. Line 485 fails inside
  a bare `except` and has no effect. Line 257 is never reached as written,
  because line 245 raises first.
- Printing and `datetime.now` are left out because they do not change
  any state. The one print that can raise, the in-sample calendar lookup
  of line 449, is modelled, so `verbose` is a field of both the
  orchestrator and the predictor.
- CSV writing (lines 307-308) is left out because it is file output. The
  model stops at the table columns in export order. `pd.concat` aligns
  columns of different lengths by padding with NaN; that padding is not
  modelled.
- `copy.deepcopy` and `np.copy` need no model: values are immutable, so
  every unit already has its own copy.
- `pd.to_datetime` is left out: dates are day numbers, and the start date
  is compared with the calendar entries directly.
- `input_vars='all'` always means the sources ath, gt and ar, in that order.
- Every input source is a two-dimensional block. One-dimensional arrays,
  for which `np.hstack` behaves differently, are not modelled.
- `in_sample` is a boolean. Other truthy values, which would scale
  `train_len` in line 444, are not modelled.
- `AR_terms` is an order, a lag list or absent (`ArTerms`). Only the
  as-written members take the raw Python argument, including a string.
- The dictionary's iteration order is not modelled. The intended
  truncation does not depend on it; the as-written members take the first
  key as a parameter.
- References held across a replacement of `model_list` are not modelled.
  `ProcessUnit` and `PredictUnit` cover calls through a reference to an
  entry that is still in the list; after `init_prediction_layer` replaces
  the list, an older reference no longer reaches it.
- GeoModels.Reslice: its own contract states only that the unit count is
  kept. What the loop does to each unit is stated by ResliceKeeps,
  ResliceEffect, ResliceUntouched and ResliceAligns for a completed loop,
  and by ResliceRaisedAt and ResliceDoneIff for a loop that raises.
- GeoModels.SavePredictions: its own contract states only that nothing
  but the unit list changes and that the list keeps its length. The rest
  is stated by SaveLoop, SaveAligns, SaveColumns and SaveIdempotent.

## Findings

| source | as written | input that shows it | evidently intended | confidence | as-written member | corrected member |
|---|---|---|---|---|---|---|
| lib/forecastlib/models.py:388-392 | `self.X.keys().pop(0)` re-reads the same first key on every pass, and the loop only exits on a key other than 'ar' | a dataset whose only source is 'ath', with `AR_terms` set: `X` then holds 'ath' and 'ar', and if 'ar' is first in iteration order (by CPython 2.7's string hashing it precedes 'ath' in a small dict) the loop never terminates | cut the 'ar' block to the length of the other sources | not executed | Predictors.ArLoopDivergesWhenArIsFirst | Predictors.ArTruncate |
| lib/forecastlib/models.py:245 | `argo_functions.ensemble_dispatcher[...]`, but the module imports only `loading_functions`, `processing_functions` and `argo_class` | any call whose members stack: NameError, and no ensemble unit is registered | call the ensemble dispatcher and register the combined unit | not executed | GeoModels.EnsembleAsWrittenNeverRegisters | GeoModels.Ensemble |
| lib/forecastlib/models.py:334 | the default `AR_terms='None'` is a non-empty string, so `if AR_terms:` is true, `max('None')` is `'o'`, and `self.X[key]['o':]` raises TypeError | `data_process()` with its default arguments | the default means no autoregressive terms | not executed | Predictors.DefaultArTermsRaises | Predictors.DataProcess |

=== FILE: calendar.dfy ===
/**
 The calendar shared by the target, the inputs and the predictions: a list of
 period-start dates, each date an integer day number.
 */
module Calendar {

  /** A date as a day number; one week is seven days. */
  type Date = int

  /** `dates.index(d)`: the first position holding `d`. Python raises
      ValueError when `d` is absent; callers check membership first. */
  function IndexOf<T(==)>(dates: seq<T>, d: T): (i: nat)
    requires d in dates
    ensures i < |dates| && dates[i] == d
    ensures forall j :: 0 <= j < i ==> dates[j] != d
  {
    if dates[0] == d then 0 else 1 + IndexOf(dates[1..], d)
  }

  /** Strictly increasing dates: the calendar's shape. */
  predicate Increasing(dates: seq<Date>)
  {
    forall i, j :: 0 <= i < j < |dates| ==> dates[i] < dates[j]
  }

  /** On an increasing calendar the index of a date is the only position
      holding it. */
  lemma IndexOfIncreasing(dates: seq<Date>, k: nat)
    requires Increasing(dates)
    requires k < |dates|
    ensures IndexOf(dates, dates[k]) == k
  {
    var i := IndexOf(dates, dates[k]);
    assert dates[i] == dates[k];
  }

  /** `n` weekly dates from `first`. */
  function Weekly(first: Date, n: nat): (dates: seq<Date>)
    ensures |dates| == n
    ensures forall i :: 0 <= i < n ==> dates[i] == first + 7 * i
  {
    seq(n, i => first + 7 * i)
  }

  /** The date `k` weeks after the first one sits at index `k`. */
  lemma IndexOfWeekly(first: Date, n: nat, k: nat)
    requires k < n
    ensures first + 7 * k in Weekly(first, n)
    ensures IndexOf(Weekly(first, n), first + 7 * k) == k
  {
    var dates := Weekly(first, n);
    assert dates[k] == first + 7 * k;
    IndexOfIncreasing(dates, k);
  }

  /** A weekly calendar without its first `s` dates is weekly from week `s`. */
  lemma WeeklyFrom(first: Date, n: nat, s: nat)
    requires s <= n
    ensures Weekly(first, n)[s..] == Weekly(first + 7 * s, n - s)
  {
    var tail := Weekly(first, n)[s..];
    forall i | 0 <= i < n - s ensures tail[i] == first + 7 * s + 7 * i {
      assert tail[i] == Weekly(first, n)[s + i];
    }
  }

  /** Any suffix of a weekly calendar, named `tail`, is weekly from where it starts. */
  lemma WeeklyAfter(first: Date, dates: seq<Date>, s: nat, tail: seq<Date>)
    requires dates == Weekly(first, |dates|) && s <= |dates| && tail == dates[s..]
    ensures tail == Weekly(first + 7 * s, |dates| - s)
  {
    WeeklyFrom(first, |dates|, s);
  }

  /** Once a calendar starts at `d`, looking `d` up again finds index 0. */
  lemma IndexOfAfterSlice<T>(dates: seq<T>, d: T)
    requires d in dates
    ensures d in dates[IndexOf(dates, d)..]
    ensures IndexOf(dates[IndexOf(dates, d)..], d) == 0
  {
    var i := IndexOf(dates, d);
    assert dates[i..][0] == d;
  }

  /** Week-starting Sundays reported as week-ending Saturdays: `x + timedelta(6)`. */
  function EndOfWeek(dates: seq<Date>): (r: seq<Date>)
    ensures |r| == |dates|
    ensures forall i :: 0 <= i < |dates| ==> r[i] == dates[i] + 6
  {
    seq(|dates|, i requires 0 <= i < |dates| => dates[i] + 6)
  }
}

=== FILE: common.dfy ===
/**
 Shared vocabulary of the forecasting model: optional values, the Python
 exceptions the forecasting code can raise, the state an object is left in
 when a method returns or raises, and Python's slicing rules for `s[k:]` and
 `s[:k]`.
 */
module Common {

  /** A value that may be absent. */
  datatype Option<+T> = None | Some(value: T)

  /** The exceptions that escape (or are caught inside) the modelled methods. */
  datatype Error =
    | KeyError(key: string)        // an input source that is not in the dictionary
    | ShapeMismatch                // np.hstack of no arrays, or of arrays with different row counts
    | UnresolvedTrainLen           // train_len stays 'default' for an unknown resolution (TypeError)
    | DateNotFound(date: int)      // list.index of a date that is not in the list (ValueError)
    | NotEnoughHistory             // the assertion that the training window fits before the start date
    | DateIndexOutOfRange(index: int) // indexing the calendar past its end (IndexError)
    | NoPredictions(name: string) // subscripting predictions that are still None (TypeError)
    | LabelsNotContainer           // `label in labels` where labels is not a container (TypeError)
    | NoSelectedModels             // s[0] on an empty selection (IndexError)
    | MissingSpec(index: int)      // labels[i] or a spec list shorter than n_models (IndexError)
    | SliceNotInteger              // slicing with a non-integer start (TypeError)
    | NameNotDefined(name: string) // a module name used but never imported (NameError)

  /** A computation that either yields a value or raises. */
  datatype Result<+T> = Ok(value: T) | Err(error: Error)

  /** The state of a mutable object after one of its methods: the method either
      returned normally, or raised `error` leaving the object in `state`. */
  datatype Outcome<+S> = Done(state: S) | Raised(state: S, error: Error)

  /** Where Python's slice bound `k` lands in a sequence of length `n`:
      negative bounds count from the end, and out-of-range bounds are clamped. */
  function SliceIndex(n: nat, k: int): (i: nat)
    ensures i <= n
    ensures 0 <= k <= n ==> i == k
    ensures n < k ==> i == n
    ensures k < 0 && 0 <= n + k ==> i == n + k
    ensures n + k < 0 ==> i == 0
  {
    if 0 <= k then (if k <= n then k else n)
    else if 0 <= n + k then n + k
    else 0
  }

  /** Python's `s[k:]`. */
  function From<T>(s: seq<T>, k: int): (r: seq<T>)
    ensures |r| <= |s|
    ensures 0 <= k <= |s| ==> |r| == |s| - k
    ensures |s| < k ==> r == []
  {
    s[SliceIndex(|s|, k)..]
  }

  /** Python's `s[:k]`. */
  function Upto<T>(s: seq<T>, k: int): (r: seq<T>)
    ensures |r| <= |s|
    ensures 0 <= k <= |s| ==> |r| == k
    ensures |s| < k ==> r == s
  {
    s[..SliceIndex(|s|, k)]
  }

  /** Dropping `a` and then `b` leading entries drops `a + b` of them. */
  lemma FromFrom<T>(s: seq<T>, a: nat, b: nat)
    ensures From(From(s, a), b) == From(s, a + b)
  {
    if a + b <= |s| {
      assert From(s, a) == s[a..];
      assert s[a..][b..] == s[a + b..];
    }
  }

  /** Entry `t` of `s[k:]` is entry `k + t` of `s`. */
  lemma FromIndex<T>(s: seq<T>, k: nat, t: nat)
    requires t < |From(s, k)|
    ensures k + t < |s| && From(s, k)[t] == s[k + t]
  {
    assert SliceIndex(|s|, k) == k;
  }

  /** `s[0:]` is `s`. */
  lemma FromZero<T>(s: seq<T>)
    ensures From(s, 0) == s
  {
  }
}

=== FILE: geo_models.dfy ===
/**
 The orchestrator (`Geo_model` in lib/forecastlib/models.py): the shared
 dataset, the list of forecasting units, and the operations that create
 units, combine their predictions into an ensemble and export them.
 */
module GeoModels {
  import opened Common
  import opened Series
  import opened Calendar
  import opened Predictors

  /** `Ens_predictor`: the values an ensemble unit is built from. */
  datatype EnsPredictor = EnsPredictor(name: string, target: Series, predictions: Series, datelist: seq<Date>)

  /** An entry of `model_list`: a forecasting unit or an ensemble unit, both
      seen through the shape {label, target, predictions, datelist}. */
  datatype Unit = Forecast(p: Predictor) | Combined(e: EnsPredictor)
  {
    function Name(): string
    {
      match this
      case Forecast(p) => p.name
      case Combined(e) => e.name
    }

    function Target(): Series
    {
      match this
      case Forecast(p) => p.target
      case Combined(e) => e.target
    }

    function Datelist(): seq<Date>
    {
      match this
      case Forecast(p) => p.datelist
      case Combined(e) => e.datelist
    }

    /** `None` for a forecasting unit whose `predict` has not run. */
    function Predictions(): Option<Series>
    {
      match this
      case Forecast(p) => p.predictions
      case Combined(e) => Some(e.predictions)
    }

    function WithDatelist(d: seq<Date>): (u: Unit)
      ensures u.Name() == Name() && u.Target() == Target() && u.Predictions() == Predictions()
      ensures u.Datelist() == d
    {
      match this
      case Forecast(p) => Forecast(p.(datelist := d))
      case Combined(e) => Combined(e.(datelist := d))
    }

    function WithTarget(t: Series): (u: Unit)
      ensures u.Name() == Name() && u.Datelist() == Datelist() && u.Predictions() == Predictions()
      ensures u.Target() == t
    {
      match this
      case Forecast(p) => Forecast(p.(target := t))
      case Combined(e) => Combined(e.(target := t))
    }

    function WithPredictions(s: Series): (u: Unit)
      ensures u.Name() == Name() && u.Datelist() == Datelist() && u.Target() == Target()
      ensures u.Predictions() == Some(s)
    {
      match this
      case Forecast(p) => Forecast(p.(predictions := Some(s)))
      case Combined(e) => Combined(e.(predictions := s))
    }
  }

  /** The orchestrator's state. */
  datatype GeoModel = GeoModel(
    inputs: map<string, Block>,
    target: Series,
    datelist: seq<Date>,
    predStartDate: Date,
    resolution: Resolution,
    verbose: bool,
    modelList: seq<Unit>)

  /** A fresh predictor holding its own copy of the shared dataset. */
  function Spawn(g: GeoModel, name: string): Predictor
  {
    NewPredictor(g.inputs, g.target, name, g.predStartDate, g.datelist, g.resolution, g.verbose)
  }

  // ---------------------------------------------------------------- creating units

  /** `init_predictor` (lines 168-179): appends exactly one fresh predictor,
      built from the shared dataset, and returns it; nothing else changes.
      The returned object is the appended entry itself, so a caller's later
      `data_process` or `predict` through it changes that entry
      (`ProcessUnit`, `PredictUnit`). */
  function InitPredictor(g: GeoModel, name: string): (r: (GeoModel, Predictor))
    ensures r.0 == g.(modelList := g.modelList + [Forecast(r.1)])
    ensures |r.0.modelList| == |g.modelList| + 1 && r.0.modelList[..|g.modelList|] == g.modelList
    ensures r.1.name == name && r.1.inputs == g.inputs && r.1.datelist == g.datelist
    ensures r.1.target == g.target && r.1.targetReserve == r.1.target
    ensures !r.1.transformTarget && r.1.predictions == None
    ensures r.1.startDate == g.predStartDate && r.1.resolution == g.resolution && r.1.verbose == g.verbose
  {
    var p := Spawn(g, name);
    (g.(modelList := g.modelList + [Forecast(p)]), p)
  }

  /** `data_process` (lines 334-400) called through a reference to the
      predictor at position `i`, such as the one `init_predictor` returns:
      that entry of the list is processed in place and no other changes. */
  function ProcessUnit(g: GeoModel, i: nat, spec: ProcessSpec, ext: Externals): (r: GeoModel)
    requires i < |g.modelList| && g.modelList[i].Forecast?
    ensures r == g.(modelList := r.modelList) && |r.modelList| == |g.modelList|
    ensures forall j :: 0 <= j < |g.modelList| && j != i ==> r.modelList[j] == g.modelList[j]
    ensures r.modelList[i] == Forecast(DataProcess(g.modelList[i].p, spec, ext))
  {
    g.(modelList := g.modelList[i := Forecast(DataProcess(g.modelList[i].p, spec, ext))])
  }

  /** `predict` (lines 402-491) called through a reference to the predictor
      at position `i`: the entry is replaced by the predicted one, and when
      `predict` raises the list is left as it was. */
  function PredictUnit(g: GeoModel, i: nat, spec: PredictSpec, ext: Externals): (r: Outcome<GeoModel>)
    requires i < |g.modelList| && g.modelList[i].Forecast?
    ensures r.Raised? <==> Predict(g.modelList[i].p, spec, ext).Raised?
    ensures r.Raised? ==> r == Raised(g, Predict(g.modelList[i].p, spec, ext).error)
    ensures r.Done? ==> r.state == g.(modelList := r.state.modelList) && |r.state.modelList| == |g.modelList|
    ensures r.Done? ==> forall j :: 0 <= j < |g.modelList| && j != i ==> r.state.modelList[j] == g.modelList[j]
    ensures r.Done? ==> r.state.modelList[i] == Forecast(Predict(g.modelList[i].p, spec, ext).state)
  {
    match Predict(g.modelList[i].p, spec, ext)
    case Raised(_, e) => Raised(g, e)
    case Done(q) => Done(g.(modelList := g.modelList[i := Forecast(q)]))
  }

  /** One unit of a layer: `data_process`, then `predict`. */
  function StepUnit(p: Predictor, process: ProcessSpec, predict: PredictSpec, ext: Externals): Predictor
  {
    Predict(DataProcess(p, process, ext), predict, ext).state
  }

  /** Lines 199-201 for unit `i`: its specs are looked up as the unit runs,
      so a short spec list raises part-way, after `data_process` when only
      the predict specs are short. */
  function LayerStep(p: Predictor, i: nat, processSpecs: seq<ProcessSpec>, predictSpecs: seq<PredictSpec>,
                     ext: Externals): (r: Outcome<Predictor>)
    ensures r.Done? ==> i < |processSpecs| && i < |predictSpecs|
    ensures r.Done? ==> r.state == StepUnit(p, processSpecs[i], predictSpecs[i], ext)
    ensures |processSpecs| <= i ==> r == Raised(p, MissingSpec(i))
    ensures i < |processSpecs| && |predictSpecs| <= i ==>
              r == Raised(DataProcess(p, processSpecs[i], ext), MissingSpec(i))
    ensures i < |processSpecs| && i < |predictSpecs| ==>
              r == Predict(DataProcess(p, processSpecs[i], ext), predictSpecs[i], ext)
  {
    if |processSpecs| <= i then Raised(p, MissingSpec(i))
    else
      var q := DataProcess(p, processSpecs[i], ext);
      if |predictSpecs| <= i then Raised(q, MissingSpec(i))
      else Predict(q, predictSpecs[i], ext)
  }

  /** Lines 199-201 from unit `i` on, for a per-unit `step`: each unit in
      turn, stopping at the first exception with the failing unit left as it
      was when it raised. */
  function RunLayer(g: GeoModel, i: nat, step: (Predictor, nat) -> Outcome<Predictor>): Outcome<GeoModel>
    requires i <= |g.modelList|
    requires forall j :: i <= j < |g.modelList| ==> g.modelList[j].Forecast?
    decreases |g.modelList| - i
  {
    if i == |g.modelList| then Done(g)
    else
      match step(g.modelList[i].p, i)
      case Raised(q, e) => Raised(g.(modelList := g.modelList[i := Forecast(q)]), e)
      case Done(q) => RunLayer(g.(modelList := g.modelList[i := Forecast(q)]), i + 1, step)
  }

  /** The first `count` labels as fresh units (line 196). */
  function SpawnAll(g: GeoModel, names: seq<string>, count: nat): (units: seq<Unit>)
    requires count <= |names|
    ensures |units| == count
    ensures forall i :: 0 <= i < count ==> units[i] == Forecast(Spawn(g, names[i]))
  {
    seq(count, i requires 0 <= i < count => Forecast(Spawn(g, names[i])))
  }

  /** The per-unit step of lines 199-201 as a function value. */
  function LayerStepFn(processSpecs: seq<ProcessSpec>, predictSpecs: seq<PredictSpec>, ext: Externals)
    : (step: (Predictor, nat) -> Outcome<Predictor>)
    ensures forall p, i :: step(p, i) == LayerStep(p, i, processSpecs, predictSpecs, ext)
  {
    (p: Predictor, i: nat) => LayerStep(p, i, processSpecs, predictSpecs, ext)
  }

  /** A layer run, completed or not, changes only the units and keeps their number. */
  lemma {:induction false} RunLayerFrame(g: GeoModel, i: nat, step: (Predictor, nat) -> Outcome<Predictor>)
    requires i <= |g.modelList|
    requires forall j :: i <= j < |g.modelList| ==> g.modelList[j].Forecast?
    ensures var r := RunLayer(g, i, step).state;
            r == g.(modelList := r.modelList) && |r.modelList| == |g.modelList|
    decreases |g.modelList| - i
  {
    if i < |g.modelList| && step(g.modelList[i].p, i).Done? {
      var g' := g.(modelList := g.modelList[i := Forecast(step(g.modelList[i].p, i).state)]);
      RunLayerFrame(g', i + 1, step);
    }
  }

  /** `init_prediction_layer` (lines 181-201): replaces the unit list by `n`
      fresh predictors and runs each one's `data_process` and `predict`.
      Too few labels raise before the list is replaced; otherwise the list
      holds `n` units (none for a negative `n`) whether or not a unit
      raises, and nothing but the list changes. */
  function InitPredictionLayer(g: GeoModel, n: int, names: seq<string>, processSpecs: seq<ProcessSpec>,
                               predictSpecs: seq<PredictSpec>, ext: Externals): (r: Outcome<GeoModel>)
    ensures |names| < n ==> r == Raised(g, MissingSpec(|names|))
    ensures r.state == g.(modelList := r.state.modelList)
    ensures n <= |names| ==> |r.state.modelList| == (if n < 0 then 0 else n)
  {
    if |names| < n then Raised(g, MissingSpec(|names|))
    else
      var count := if n < 0 then 0 else n;
      var spawned := g.(modelList := SpawnAll(g, names, count));
      RunLayerFrame(spawned, 0, LayerStepFn(processSpecs, predictSpecs, ext));
      RunLayer(spawned, 0, LayerStepFn(processSpecs, predictSpecs, ext))
  }

  /** A completed run applied `step` to every unit from `i` on, each to the
      unit as it was before the run, and changed nothing else. */
  lemma {:induction false} RunLayerUnits(g: GeoModel, i: nat, step: (Predictor, nat) -> Outcome<Predictor>)
    requires i <= |g.modelList|
    requires forall j :: i <= j < |g.modelList| ==> g.modelList[j].Forecast?
    requires RunLayer(g, i, step).Done?
    ensures var r := RunLayer(g, i, step).state;
            && r == g.(modelList := r.modelList)
            && |r.modelList| == |g.modelList|
            && (forall j :: 0 <= j < i ==> r.modelList[j] == g.modelList[j])
            && (forall j :: i <= j < |g.modelList| ==>
                  step(g.modelList[j].p, j).Done? && r.modelList[j] == Forecast(step(g.modelList[j].p, j).state))
    decreases |g.modelList| - i
  {
    if i < |g.modelList| {
      var q := step(g.modelList[i].p, i);
      var g' := g.(modelList := g.modelList[i := Forecast(q.state)]);
      var r := RunLayer(g', i + 1, step);
      assert RunLayer(g, i, step) == r;
      RunLayerUnits(g', i + 1, step);
      forall j | i < j < |g.modelList| ensures g'.modelList[j] == g.modelList[j] {
      }
    }
  }

  /** A layer run over fresh units that completes leaves unit `i` as
      `step` makes it from a fresh predictor, whatever its siblings did. */
  lemma LayerRunsAlone(g: GeoModel, names: seq<string>, count: nat, step: (Predictor, nat) -> Outcome<Predictor>)
    requires count <= |names|
    requires RunLayer(g.(modelList := SpawnAll(g, names, count)), 0, step).Done?
    ensures var r := RunLayer(g.(modelList := SpawnAll(g, names, count)), 0, step).state;
            && r == g.(modelList := r.modelList)
            && |r.modelList| == count
            && forall i :: 0 <= i < count ==>
                 step(Spawn(g, names[i]), i).Done? && r.modelList[i] == Forecast(step(Spawn(g, names[i]), i).state)
  {
    RunLayerUnits(g.(modelList := SpawnAll(g, names, count)), 0, step);
  }

  /** A layer that completes had a label and both specs for every unit, and
      holds exactly `n` units (none for a negative `n`), each one exactly what
      its own step makes of a fresh predictor: siblings never see each other's
      transforms. */
  lemma LayerUnitsAreIsolated(g: GeoModel, n: int, names: seq<string>, processSpecs: seq<ProcessSpec>,
                              predictSpecs: seq<PredictSpec>, ext: Externals)
    requires InitPredictionLayer(g, n, names, processSpecs, predictSpecs, ext).Done?
    ensures var r := InitPredictionLayer(g, n, names, processSpecs, predictSpecs, ext).state;
            var count := if n < 0 then 0 else n;
            && count <= |names| && count <= |processSpecs| && count <= |predictSpecs|
            && r == g.(modelList := r.modelList)
            && |r.modelList| == count
            && forall i :: 0 <= i < count ==>
                 var step := LayerStep(Spawn(g, names[i]), i, processSpecs, predictSpecs, ext);
                 step.Done? && r.modelList[i] == Forecast(step.state)
  {
    var count := if n < 0 then 0 else n;
    var step := LayerStepFn(processSpecs, predictSpecs, ext);
    assert |names| >= n;
    LayerRunsAlone(g, names, count, step);
    if 0 < count {
      assert step(Spawn(g, names[count - 1]), count - 1).Done?;
    }
  }

  /** A predictor made by `init_predictor` and then processed and predicted
      through the returned reference ends up in the list exactly as a unit
      of a layer with the same specs would, after the untouched earlier
      units; when `predict` raises, the entry keeps its processed state. */
  lemma InitThenRun(g: GeoModel, name: string, ps: ProcessSpec, qs: PredictSpec, ext: Externals)
    ensures var i := |g.modelList|;
            var g2 := ProcessUnit(InitPredictor(g, name).0, i, ps, ext);
            var r := PredictUnit(g2, i, qs, ext);
            && r.state == g.(modelList := r.state.modelList)
            && |r.state.modelList| == i + 1 && r.state.modelList[..i] == g.modelList
            && (r.Done? <==> LayerStep(Spawn(g, name), 0, [ps], [qs], ext).Done?)
            && (r.Done? ==> r.state.modelList[i] == Forecast(StepUnit(Spawn(g, name), ps, qs, ext)))
            && (r.Raised? ==> r.state.modelList[i] == Forecast(DataProcess(Spawn(g, name), ps, ext)))
  {
    var i := |g.modelList|;
    var g1 := InitPredictor(g, name).0;
    var g2 := ProcessUnit(g1, i, ps, ext);
    assert g2.modelList[..i] == g.modelList by {
      assert g1.modelList[..i] == g.modelList;
    }
  }

  // ---------------------------------------------------------------- selecting units

  /** The `model_labels` / `ind_labels` argument: a list of labels, a string
      (where `in` tests for a substring), or something `in` cannot search. */
  datatype LabelQuery = LabelList(names: seq<string>) | LabelText(text: string) | NotContainer

  /** Python's `s in text` for strings. */
  predicate Contains(text: string, s: string)
    decreases |text|
  {
    s <= text || (|text| > 0 && Contains(text[1..], s))
  }

  /** `name in labels`. */
  predicate Matches(q: LabelQuery, name: string)
  {
    match q
    case LabelList(names) => name in names
    case LabelText(text) => Contains(text, name)
    case NotContainer => false
  }

  /** Indices in increasing order. */
  predicate Ascending(idx: seq<nat>)
  {
    forall a, b :: 0 <= a < b < |idx| ==> idx[a] < idx[b]
  }

  /** The indices from `i` on of the units whose label `q` matches, in list order. */
  function FilterFrom(units: seq<Unit>, q: LabelQuery, i: nat): (idx: seq<nat>)
    requires i <= |units|
    ensures Ascending(idx)
    ensures forall a :: 0 <= a < |idx| ==> i <= idx[a] < |units|
    ensures forall j :: i <= j < |units| ==> (j in idx <==> Matches(q, units[j].Name()))
    decreases |units| - i
  {
    if i == |units| then []
    else if Matches(q, units[i].Name()) then [i] + FilterFrom(units, q, i + 1)
    else FilterFrom(units, q, i + 1)
  }

  /** `[m for m in model_list if m.label in labels]`, as indices: raises
      TypeError when `labels` cannot be searched and there is a unit to test. */
  function Select(units: seq<Unit>, q: LabelQuery): (r: Result<seq<nat>>)
    ensures r.Err? <==> q.NotContainer? && |units| > 0
    ensures r.Err? ==> r.error == LabelsNotContainer
    ensures r.Ok? ==> Ascending(r.value)
    ensures r.Ok? ==> forall a :: 0 <= a < |r.value| ==> r.value[a] < |units|
    ensures r.Ok? ==> forall j :: 0 <= j < |units| ==> (j in r.value <==> Matches(q, units[j].Name()))
  {
    if q.NotContainer? && |units| > 0 then Err(LabelsNotContainer)
    else Ok(FilterFrom(units, q, 0))
  }

  /** Selection looks at the labels only. */
  lemma {:induction false} FilterByNames(u1: seq<Unit>, u2: seq<Unit>, q: LabelQuery, i: nat)
    requires |u1| == |u2| && i <= |u1|
    requires forall j :: 0 <= j < |u1| ==> u1[j].Name() == u2[j].Name()
    ensures FilterFrom(u1, q, i) == FilterFrom(u2, q, i)
    decreases |u1| - i
  {
    if i < |u1| {
      FilterByNames(u1, u2, q, i + 1);
    }
  }

  // ---------------------------------------------------------------- ensemble

  /** Line 237: each member's predictions without the horizon padding, in
      selection order; the first member whose predictions are still `None`
      raises. */
  function MemberColumns(units: seq<Unit>, idx: seq<nat>, horizon: int): (r: Result<seq<Series>>)
    requires forall a :: 0 <= a < |idx| ==> idx[a] < |units|
    ensures r.Ok? <==> forall a :: 0 <= a < |idx| ==> units[idx[a]].Predictions().Some?
    ensures r.Ok? ==> |r.value| == |idx|
    ensures r.Ok? ==> forall a :: 0 <= a < |idx| ==>
                        r.value[a] == From(units[idx[a]].Predictions().value, 2 * horizon)
    ensures r.Err? ==> exists a :: 0 <= a < |idx| && r.error == NoPredictions(units[idx[a]].Name())
    decreases |idx|
  {
    if idx == [] then Ok([])
    else
      match units[idx[0]].Predictions()
      case None => Err(NoPredictions(units[idx[0]].Name()))
      case Some(pr) =>
        match MemberColumns(units, idx[1..], horizon)
        case Err(e) =>
          assert forall a :: 0 <= a < |idx[1..]| ==> idx[1..][a] == idx[a + 1];
          Err(e)
        case Ok(rest) => Ok([From(pr, 2 * horizon)] + rest)
  }

  /** Lines 236-240: the selected members and the stacked matrix of their
      predictions, one column per member. */
  function EnsembleStack(units: seq<Unit>, q: LabelQuery, horizon: int): (r: Result<(seq<nat>, Block)>)
    ensures r.Ok? ==> Select(units, q) == Ok(r.value.0) && |r.value.0| > 0
    ensures r.Ok? ==> forall a :: 0 <= a < |r.value.0| ==> r.value.0[a] < |units|
    ensures r.Ok? <==>
              && Select(units, q).Ok?
              && var idx := Select(units, q).value;
              && |idx| > 0
              && (forall a :: 0 <= a < |idx| ==> units[idx[a]].Predictions().Some?)
              && forall a :: 0 <= a < |idx| ==>
                   |From(units[idx[a]].Predictions().value, 2 * horizon)|
                     == |From(units[idx[0]].Predictions().value, 2 * horizon)|
  {
    match Select(units, q)
    case Err(e) => Err(e)
    case Ok(idx) =>
      match MemberColumns(units, idx, horizon)
      case Err(e) => Err(e)
      case Ok(cols) =>
        StackColumns(cols);
        match HStack(Columns(cols))
        case None => Err(ShapeMismatch)
        case Some(stack) => Ok((idx, stack))
  }

  /** Stacking the members' stripped predictions side by side: row `t`,
      column `a` is entry `2 * horizon + t` of member `a`'s predictions. */
  lemma MemberStackEntries(units: seq<Unit>, idx: seq<nat>, horizon: int, stack: Block)
    requires 0 <= horizon
    requires forall a :: 0 <= a < |idx| ==> idx[a] < |units|
    requires MemberColumns(units, idx, horizon).Ok?
    requires HStack(Columns(MemberColumns(units, idx, horizon).value)) == Some(stack)
    ensures forall a :: 0 <= a < |idx| ==> units[idx[a]].Predictions().Some?
    ensures forall a :: 0 <= a < |idx| ==> |stack| == |From(units[idx[a]].Predictions().value, 2 * horizon)|
    ensures forall t, a :: 0 <= t < |stack| && 0 <= a < |idx| ==>
              |stack[t]| == |idx| && stack[t][a] == units[idx[a]].Predictions().value[2 * horizon + t]
  {
    var cols := MemberColumns(units, idx, horizon).value;
    StackColumns(cols);
    forall a | 0 <= a < |idx|
      ensures |stack| == |From(units[idx[a]].Predictions().value, 2 * horizon)|
    {
      assert |cols[a]| == |cols[0]|;
    }
    forall t, a | 0 <= t < |stack| && 0 <= a < |idx|
      ensures stack[t][a] == units[idx[a]].Predictions().value[2 * horizon + t]
    {
      var pr := units[idx[a]].Predictions().value;
      assert cols[a] == From(pr, 2 * horizon);
      FromIndex(pr, 2 * horizon, t);
    }
  }

  /** Row `t`, column `a` of the stacked matrix is entry `2 * horizon + t` of
      member `a`'s predictions: the padding is stripped, nothing else. */
  lemma EnsembleStackEntries(units: seq<Unit>, q: LabelQuery, horizon: int)
    requires 0 <= horizon
    requires EnsembleStack(units, q, horizon).Ok?
    ensures var (idx, stack) := EnsembleStack(units, q, horizon).value;
            && (forall a :: 0 <= a < |idx| ==> units[idx[a]].Predictions().Some?)
            && (forall a :: 0 <= a < |idx| ==> |stack| == |From(units[idx[a]].Predictions().value, 2 * horizon)|)
            && forall t, a :: 0 <= t < |stack| && 0 <= a < |idx| ==>
                 |stack[t]| == |idx| && stack[t][a] == units[idx[a]].Predictions().value[2 * horizon + t]
  {
    var (idx, stack) := EnsembleStack(units, q, horizon).value;
    MemberStackEntries(units, idx, horizon, stack);
  }

  /** `ensemble` (lines 203-261) with the dispatcher it means to call: stack
      the members' unpadded predictions, take the target and calendar of the
      first member, drop `train_len` of them out of sample, pad the combined
      prediction and register it as a new unit. */
  function Ensemble(g: GeoModel, methodName: string, ensName: string, indLabels: LabelQuery, horizon: int,
                    trainLen: int, inSample: bool, ext: Externals): (r: Outcome<GeoModel>)
    ensures r.Raised? <==> EnsembleStack(g.modelList, indLabels, horizon).Err?
    ensures r.Raised? ==> r.state == g
    ensures r.Done? ==> r.state == g.(modelList := r.state.modelList)
    ensures r.Done? ==> |r.state.modelList| == |g.modelList| + 1 && r.state.modelList[..|g.modelList|] == g.modelList
    ensures r.Done? ==> r.state.modelList[|g.modelList|].Name() == ensName
  {
    match EnsembleStack(g.modelList, indLabels, horizon)
    case Err(e) => Raised(g, e)
    case Ok((idx, stack)) =>
      var first := g.modelList[idx[0]];
      var pred := ext.dispatch(DispatchCall(methodName, stack, first.Target(), horizon, trainLen, inSample));
      var target := if inSample then first.Target() else From(first.Target(), trainLen);
      var dates := if inSample then first.Datelist() else From(first.Datelist(), trainLen);
      Done(g.(modelList := g.modelList + [Combined(EnsPredictor(ensName, target, Pad(pred, horizon), dates))]))
  }

  /** The new ensemble unit takes its target and calendar from the first
      selected unit in list order, both shortened by `train_len` out of
      sample, and its predictions are `2 * horizon` missing markers followed by
      the dispatcher's output for the stacked matrix and that first target. */
  lemma EnsembleUnit(g: GeoModel, methodName: string, ensName: string, indLabels: LabelQuery, horizon: int,
                     trainLen: int, inSample: bool, ext: Externals)
    requires Ensemble(g, methodName, ensName, indLabels, horizon, trainLen, inSample, ext).Done?
    ensures EnsembleStack(g.modelList, indLabels, horizon).Ok?
    ensures var (idx, stack) := EnsembleStack(g.modelList, indLabels, horizon).value;
            var first := g.modelList[idx[0]];
            var u := Ensemble(g, methodName, ensName, indLabels, horizon, trainLen, inSample, ext).state.modelList[|g.modelList|];
            var out := ext.dispatch(DispatchCall(methodName, stack, first.Target(), horizon, trainLen, inSample));
            && Matches(indLabels, first.Name())
            && (forall j :: 0 <= j < idx[0] ==> !Matches(indLabels, g.modelList[j].Name()))
            && u.Target() == (if inSample then first.Target() else From(first.Target(), trainLen))
            && u.Datelist() == (if inSample then first.Datelist() else From(first.Datelist(), trainLen))
            && u.Predictions().Some?
            && |u.Predictions().value| == PadCount(horizon) + |out|
            && (forall i :: 0 <= i < PadCount(horizon) ==> u.Predictions().value[i] == None)
            && u.Predictions().value[PadCount(horizon)..] == out
  {
    var idx := EnsembleStack(g.modelList, indLabels, horizon).value.0;
    assert idx[0] in idx;
    forall j | 0 <= j < idx[0] ensures !Matches(indLabels, g.modelList[j].Name()) {
      assert forall a :: 0 <= a < |idx| ==> idx[0] <= idx[a];
      assert j !in idx;
    }
  }

  /** `ensemble` as written (lines 203-261): `argo_functions` is never
      imported, so once the stack is built line 245 raises NameError and no
      unit is registered. */
  function EnsembleAsWritten(g: GeoModel, methodName: string, ensName: string, indLabels: LabelQuery,
                             horizon: int, trainLen: int, inSample: bool): (r: Outcome<GeoModel>)
    ensures r.Raised? && r.state == g
    ensures EnsembleStack(g.modelList, indLabels, horizon).Err? ==>
              r.error == EnsembleStack(g.modelList, indLabels, horizon).error
    ensures EnsembleStack(g.modelList, indLabels, horizon).Ok? ==> r.error == NameNotDefined("argo_functions")
  {
    match EnsembleStack(g.modelList, indLabels, horizon)
    case Err(e) => Raised(g, e)
    case Ok(_) => Raised(g, NameNotDefined("argo_functions"))
  }

  /** No call of the as-written `ensemble` ever adds a unit, whereas the
      intended one adds exactly one whenever the members stack. */
  lemma EnsembleAsWrittenNeverRegisters(g: GeoModel, methodName: string, ensName: string, indLabels: LabelQuery,
                                        horizon: int, trainLen: int, inSample: bool, ext: Externals)
    ensures var r := EnsembleAsWritten(g, methodName, ensName, indLabels, horizon, trainLen, inSample);
            r.Raised? && r.state == g
    ensures EnsembleStack(g.modelList, indLabels, horizon).Ok? ==>
              EnsembleAsWritten(g, methodName, ensName, indLabels, horizon, trainLen, inSample).error
                == NameNotDefined("argo_functions")
              && |Ensemble(g, methodName, ensName, indLabels, horizon, trainLen, inSample, ext).state.modelList|
                == |g.modelList| + 1
  {
  }

  // ---------------------------------------------------------------- export

  /** `0, 1, ..., n - 1`. */
  function AllIndices(n: nat): (r: seq<nat>)
    ensures |r| == n && Ascending(r)
    ensures forall i :: 0 <= i < n ==> r[i] == i
  {
    seq(n, i requires 0 <= i < n => i)
  }

  /** Lines 279-286: every unit for 'all' or for a label argument that cannot
      be searched, otherwise the matching units in list order. */
  function SaveSelection(units: seq<Unit>, q: LabelQuery): (idx: seq<nat>)
    ensures Ascending(idx)
    ensures forall a :: 0 <= a < |idx| ==> idx[a] < |units|
    ensures q == LabelText("all") || q.NotContainer? ==> idx == AllIndices(|units|)
    ensures q != LabelText("all") && !q.NotContainer? ==>
              forall j :: 0 <= j < |units| ==> (j in idx <==> Matches(q, units[j].Name()))
  {
    if q == LabelText("all") then AllIndices(|units|)
    else
      match Select(units, q)
      case Ok(idx) => idx
      case Err(_) => AllIndices(|units|)
  }

  /** Lines 291-294 for one unit: find the start date, then re-slice the
      calendar, the target and the predictions from that same index. A
      missing date raises before anything changes; missing predictions raise
      after the calendar and target were re-sliced. */
  function ResliceUnit(u: Unit, d: Date): (r: Outcome<Unit>)
    ensures r.Done? <==> d in u.Datelist() && u.Predictions().Some?
    ensures r.Raised? && d !in u.Datelist() ==> r.state == u
    ensures d !in u.Datelist() ==> r == Raised(u, DateNotFound(d))
    ensures d in u.Datelist() && u.Predictions().None? ==>
              var shift := IndexOf(u.Datelist(), d);
              r == Raised(u.WithDatelist(u.Datelist()[shift..]).WithTarget(From(u.Target(), shift)),
                          NoPredictions(u.Name()))
    ensures r.state.Name() == u.Name()
    ensures r.Done? ==>
              var shift := IndexOf(u.Datelist(), d);
              && r.state.Datelist() == u.Datelist()[shift..]
              && r.state.Datelist()[0] == d
              && r.state.Target() == From(u.Target(), shift)
              && r.state.Predictions() == Some(From(u.Predictions().value, shift))
  {
    if d !in u.Datelist() then Raised(u, DateNotFound(d))
    else
      var shift := IndexOf(u.Datelist(), d);
      var u1 := u.WithDatelist(u.Datelist()[shift..]).WithTarget(From(u.Target(), shift));
      match u.Predictions()
      case None => Raised(u1, NoPredictions(u.Name()))
      case Some(pr) => Done(u1.WithPredictions(From(pr, shift)))
  }

  /** A unit whose calendar already starts at `d` is left as it is: the
      re-slice is a no-op, so exporting twice with one date changes nothing. */
  lemma ResliceAtStart(u: Unit, d: Date)
    requires |u.Datelist()| > 0 && u.Datelist()[0] == d
    requires u.Predictions().Some?
    ensures ResliceUnit(u, d) == Done(u)
  {
    assert IndexOf(u.Datelist(), d) == 0;
    FromZero(u.Target());
    FromZero(u.Predictions().value);
    match u
    case Forecast(p) =>
    case Combined(e) =>
  }

  /** The re-slice of lines 291-294 at date `d`, as a step over units. */
  function ResliceAt(d: Date): (step: Unit -> Outcome<Unit>)
    ensures forall u :: step(u) == ResliceUnit(u, d)
  {
    (u: Unit) => ResliceUnit(u, d)
  }

  /** The loop of lines 290-295 over the selected indices, for a per-unit
      `step`, stopping at the first exception. */
  function Reslice(units: seq<Unit>, idx: seq<nat>, step: Unit -> Outcome<Unit>): (r: Outcome<seq<Unit>>)
    requires forall a :: 0 <= a < |idx| ==> idx[a] < |units|
    ensures |r.state| == |units|
    decreases |idx|
  {
    if idx == [] then Done(units)
    else
      match step(units[idx[0]])
      case Raised(u, e) => Raised(units[idx[0] := u], e)
      case Done(u) => Reslice(units[idx[0] := u], idx[1..], step)
  }

  /** The loop keeps every label when the step does, whether or not it
      completes. */
  lemma {:induction false} ResliceKeeps(units: seq<Unit>, idx: seq<nat>, step: Unit -> Outcome<Unit>)
    requires forall a :: 0 <= a < |idx| ==> idx[a] < |units|
    requires forall u :: step(u).state.Name() == u.Name()
    ensures var r := Reslice(units, idx, step);
            forall j :: 0 <= j < |units| ==> r.state[j].Name() == units[j].Name()
    decreases |idx|
  {
    if idx != [] {
      var next := units[idx[0] := step(units[idx[0]]).state];
      if step(units[idx[0]]).Done? {
        ResliceKeeps(next, idx[1..], step);
      }
    }
  }

  /** A completed loop applied the step once to each selected unit as it was
      before the loop: indices never repeat, so no unit is cut twice. */
  lemma {:induction false} ResliceEffect(units: seq<Unit>, idx: seq<nat>, step: Unit -> Outcome<Unit>)
    requires Ascending(idx)
    requires forall a :: 0 <= a < |idx| ==> idx[a] < |units|
    requires Reslice(units, idx, step).Done?
    ensures var r := Reslice(units, idx, step);
            forall a :: 0 <= a < |idx| ==> step(units[idx[a]]) == Done(r.state[idx[a]])
    decreases |idx|
  {
    if idx != [] {
      var next := units[idx[0] := step(units[idx[0]]).state];
      var rest := idx[1..];
      assert forall a :: 0 <= a < |rest| ==> rest[a] == idx[a + 1] && idx[0] < rest[a];
      var r := Reslice(next, rest, step);
      assert Reslice(units, idx, step) == r;
      ResliceEffect(next, rest, step);
      assert r.state[idx[0]] == next[idx[0]] by {
        assert forall a :: 0 <= a < |rest| ==> step(next[rest[a]]) == Done(r.state[rest[a]]);
        ResliceUntouched(next, rest, step, idx[0]);
      }
      forall a | 0 <= a < |idx| ensures step(units[idx[a]]) == Done(r.state[idx[a]]) {
        if 0 < a {
          assert idx[a] == rest[a - 1];
          assert next[idx[a]] == units[idx[a]];
        }
      }
    }
  }

  /** A loop that raises at selected position `b`, every earlier step having
      returned, leaves exactly the partial export: units before `b` were
      re-sliced once, unit `b` holds the state its own step raised with, and
      the units after `b` are as they were. */
  lemma {:induction false} ResliceRaisedAt(units: seq<Unit>, idx: seq<nat>, step: Unit -> Outcome<Unit>, b: nat)
    requires Ascending(idx)
    requires forall a :: 0 <= a < |idx| ==> idx[a] < |units|
    requires b < |idx|
    requires forall a :: 0 <= a < b ==> step(units[idx[a]]).Done?
    requires step(units[idx[b]]).Raised?
    ensures var r := Reslice(units, idx, step);
            && r.Raised?
            && r.error == step(units[idx[b]]).error
            && r.state[idx[b]] == step(units[idx[b]]).state
            && (forall a :: 0 <= a < b ==> step(units[idx[a]]) == Done(r.state[idx[a]]))
            && (forall a :: b < a < |idx| ==> r.state[idx[a]] == units[idx[a]])
    decreases |idx|
  {
    var r := Reslice(units, idx, step);
    if b == 0 {
      assert r == Raised(units[idx[0] := step(units[idx[0]]).state], step(units[idx[0]]).error);
      forall a | 0 < a < |idx| ensures r.state[idx[a]] == units[idx[a]] {
        assert idx[0] < idx[a];
      }
    } else {
      var next := units[idx[0] := step(units[idx[0]]).state];
      var rest := idx[1..];
      assert forall a :: 0 <= a < |rest| ==> rest[a] == idx[a + 1] && idx[0] < rest[a];
      assert forall a :: 0 <= a < |rest| ==> next[rest[a]] == units[rest[a]];
      assert r == Reslice(next, rest, step);
      ResliceRaisedAt(next, rest, step, b - 1);
      assert r.state[idx[0]] == next[idx[0]] by {
        ResliceUntouched(next, rest, step, idx[0]);
      }
      forall a | 0 <= a < b ensures step(units[idx[a]]) == Done(r.state[idx[a]]) {
        if 0 < a {
          assert idx[a] == rest[a - 1];
        }
      }
      forall a | b < a < |idx| ensures r.state[idx[a]] == units[idx[a]] {
        assert idx[a] == rest[a - 1];
      }
    }
  }

  /** The loop completes exactly when every selected step returns. */
  lemma {:induction false} ResliceDoneIff(units: seq<Unit>, idx: seq<nat>, step: Unit -> Outcome<Unit>)
    requires Ascending(idx)
    requires forall a :: 0 <= a < |idx| ==> idx[a] < |units|
    ensures Reslice(units, idx, step).Done? <==> forall a :: 0 <= a < |idx| ==> step(units[idx[a]]).Done?
    decreases |idx|
  {
    if idx != [] {
      var next := units[idx[0] := step(units[idx[0]]).state];
      var rest := idx[1..];
      assert forall a :: 0 <= a < |rest| ==> rest[a] == idx[a + 1] && idx[0] < rest[a];
      assert forall a :: 0 <= a < |rest| ==> next[rest[a]] == units[rest[a]];
      if step(units[idx[0]]).Done? {
        ResliceDoneIff(next, rest, step);
        if forall a :: 0 <= a < |rest| ==> step(next[rest[a]]).Done? {
          forall a | 0 <= a < |idx| ensures step(units[idx[a]]).Done? {
            if 0 < a { assert idx[a] == rest[a - 1]; }
          }
        } else {
          var a :| 0 <= a < |rest| && !step(next[rest[a]]).Done?;
          assert !step(units[idx[a + 1]]).Done?;
        }
      }
    }
  }

  /** A unit the loop does not select comes out as it went in. */
  lemma {:induction false} ResliceUntouched(units: seq<Unit>, idx: seq<nat>, step: Unit -> Outcome<Unit>, j: nat)
    requires forall a :: 0 <= a < |idx| ==> idx[a] < |units|
    requires j < |units| && j !in idx
    ensures Reslice(units, idx, step).state[j] == units[j]
    decreases |idx|
  {
    if idx != [] && step(units[idx[0]]).Done? {
      ResliceUntouched(units[idx[0] := step(units[idx[0]]).state], idx[1..], step, j);
    }
  }

  /** Every unit the loop does not select comes out as it went in. */
  lemma ResliceUntouchedAll(units: seq<Unit>, idx: seq<nat>, step: Unit -> Outcome<Unit>)
    requires forall a :: 0 <= a < |idx| ==> idx[a] < |units|
    ensures var r := Reslice(units, idx, step);
            forall j :: 0 <= j < |units| && j !in idx ==> r.state[j] == units[j]
  {
    forall j | 0 <= j < |units| && j !in idx ensures Reslice(units, idx, step).state[j] == units[j] {
      ResliceUntouched(units, idx, step, j);
    }
  }

  /** Re-slicing units the step leaves as they are changes nothing. */
  lemma {:induction false} ResliceFixed(units: seq<Unit>, idx: seq<nat>, step: Unit -> Outcome<Unit>)
    requires forall a :: 0 <= a < |idx| ==> idx[a] < |units|
    requires forall a :: 0 <= a < |idx| ==> step(units[idx[a]]) == Done(units[idx[a]])
    ensures Reslice(units, idx, step) == Done(units)
    decreases |idx|
  {
    if idx != [] {
      assert units[idx[0] := units[idx[0]]] == units;
      ResliceFixed(units, idx[1..], step);
    }
  }

  /** The exported table: the date column, the target column, then one
      prediction column per selected unit. */
  datatype Table = Table(week: seq<Date>, target: Series, columns: seq<(string, Series)>)

  /** The orchestrator after `save_predictions`, and the table or the exception. */
  datatype Export = Export(model: GeoModel, table: Result<Table>)

  /** Lines 296-300: the date column from the first selected unit (moved to
      the week's Saturday when asked), its target, and one named prediction
      column per selected unit in selection order. */
  function Tabulate(units: seq<Unit>, idx: seq<nat>, endSaturday: bool): (t: Table)
    requires |idx| > 0
    requires forall a :: 0 <= a < |idx| ==> idx[a] < |units| && units[idx[a]].Predictions().Some?
    ensures |t.week| == |units[idx[0]].Datelist()|
    ensures forall i :: 0 <= i < |t.week| ==>
              t.week[i] == units[idx[0]].Datelist()[i] + (if endSaturday then 6 else 0)
    ensures t.target == units[idx[0]].Target()
    ensures |t.columns| == |idx|
    ensures forall a :: 0 <= a < |idx| ==>
              t.columns[a] == (units[idx[a]].Name(), units[idx[a]].Predictions().value)
  {
    var first := units[idx[0]];
    var week := if endSaturday then EndOfWeek(first.Datelist()) else first.Datelist();
    Table(week, first.Target(),
          seq(|idx|, a requires 0 <= a < |idx| => (units[idx[a]].Name(), units[idx[a]].Predictions().value)))
  }

  /** `save_predictions` (lines 263-308) without the file writing. */
  function SavePredictions(g: GeoModel, q: LabelQuery, endSaturday: bool): (r: Export)
    ensures r.model == g.(modelList := r.model.modelList)
    ensures |r.model.modelList| == |g.modelList|
  {
    var idx := SaveSelection(g.modelList, q);
    var step := ResliceAt(g.predStartDate);
    match Reslice(g.modelList, idx, step)
    case Raised(units, e) => Export(g.(modelList := units), Err(e))
    case Done(units) =>
      if idx == [] then Export(g.(modelList := units), Err(NoSelectedModels))
      else
        assert forall a :: 0 <= a < |idx| ==> units[idx[a]].Predictions().Some? by {
          ResliceEffect(g.modelList, idx, step);
        }
        Export(g.(modelList := units), Ok(Tabulate(units, idx, endSaturday)))
  }

  /** The units after an export are those the loop left, and the table is
      produced exactly when the loop completed over a non-empty selection. */
  lemma SaveLoop(g: GeoModel, q: LabelQuery, endSaturday: bool)
    ensures var idx := SaveSelection(g.modelList, q);
            var loop := Reslice(g.modelList, idx, ResliceAt(g.predStartDate));
            var r := SavePredictions(g, q, endSaturday);
            && r.model.modelList == loop.state
            && (r.table.Ok? <==> loop.Done? && |idx| > 0)
  {
  }

  /** `after` is `before` cut where `before`'s calendar reaches `d`: the
      calendar, the target and the predictions lose the same leading entries,
      and the calendar now starts at `d`. */
  predicate CutAt(before: Unit, after: Unit, d: Date)
  {
    && d in before.Datelist()
    && before.Predictions().Some?
    && var shift := IndexOf(before.Datelist(), d);
    && after.Name() == before.Name()
    && after.Datelist() == before.Datelist()[shift..]
    && |after.Datelist()| > 0 && after.Datelist()[0] == d
    && after.Target() == From(before.Target(), shift)
    && after.Predictions() == Some(From(before.Predictions().value, shift))
  }

  /** A completed loop at date `d` cut every selected unit at `d` and left the
      other units alone. */
  lemma ResliceAligns(units: seq<Unit>, idx: seq<nat>, d: Date)
    requires Ascending(idx)
    requires forall a :: 0 <= a < |idx| ==> idx[a] < |units|
    requires Reslice(units, idx, ResliceAt(d)).Done?
    ensures var after := Reslice(units, idx, ResliceAt(d)).state;
            && (forall j :: 0 <= j < |units| && j !in idx ==> after[j] == units[j])
            && forall a :: 0 <= a < |idx| ==> CutAt(units[idx[a]], after[idx[a]], d)
  {
    var after := Reslice(units, idx, ResliceAt(d)).state;
    ResliceUntouchedAll(units, idx, ResliceAt(d));
    ResliceEffect(units, idx, ResliceAt(d));
    forall a | 0 <= a < |idx| ensures CutAt(units[idx[a]], after[idx[a]], d) {
      assert ResliceUnit(units[idx[a]], d) == Done(after[idx[a]]);
    }
  }

  /** After a successful export every selected unit's calendar, target and
      predictions were cut at the same index, its calendar now starts at the
      prediction start date, and the unselected units are untouched. */
  lemma SaveAligns(g: GeoModel, q: LabelQuery, endSaturday: bool)
    requires SavePredictions(g, q, endSaturday).table.Ok?
    ensures var idx := SaveSelection(g.modelList, q);
            var after := SavePredictions(g, q, endSaturday).model.modelList;
            && |idx| > 0
            && (forall j :: 0 <= j < |g.modelList| && j !in idx ==> after[j] == g.modelList[j])
            && forall a :: 0 <= a < |idx| ==> CutAt(g.modelList[idx[a]], after[idx[a]], g.predStartDate)
  {
    SaveLoop(g, q, endSaturday);
    ResliceAligns(g.modelList, SaveSelection(g.modelList, q), g.predStartDate);
  }

  /** The exported table is the one built from the re-sliced units, and its
      first row is the prediction start date (its Saturday when asked). */
  lemma SaveColumns(g: GeoModel, q: LabelQuery, endSaturday: bool)
    requires SavePredictions(g, q, endSaturday).table.Ok?
    ensures var r := SavePredictions(g, q, endSaturday);
            var idx := SaveSelection(g.modelList, q);
            && |idx| > 0
            && (forall a :: 0 <= a < |idx| ==> r.model.modelList[idx[a]].Predictions().Some?)
            && r.table.value == Tabulate(r.model.modelList, idx, endSaturday)
            && |r.table.value.week| > 0
            && r.table.value.week[0] == g.predStartDate + (if endSaturday then 6 else 0)
  {
    SaveAligns(g, q, endSaturday);
  }

  /** Re-slicing keeps the labels, so a second export selects the same units. */
  lemma SaveSelectsAgain(g: GeoModel, q: LabelQuery, endSaturday: bool)
    ensures var after := SavePredictions(g, q, endSaturday).model.modelList;
            SaveSelection(after, q) == SaveSelection(g.modelList, q)
  {
    var units := g.modelList;
    var step := ResliceAt(g.predStartDate);
    var idx := SaveSelection(units, q);
    var after := SavePredictions(g, q, endSaturday).model.modelList;
    SaveLoop(g, q, endSaturday);
    assert forall u :: step(u).state.Name() == u.Name();
    ResliceKeeps(units, idx, step);
    FilterByNames(units, after, q, 0);
  }

  /** After a completed loop each selected unit starts at the prediction
      start date and holds predictions. */
  lemma SaveStartsAtDate(g: GeoModel, q: LabelQuery, endSaturday: bool)
    requires SavePredictions(g, q, endSaturday).table.Ok?
    ensures var after := SavePredictions(g, q, endSaturday).model.modelList;
            var idx := SaveSelection(g.modelList, q);
            forall a :: 0 <= a < |idx| ==>
              && |after[idx[a]].Datelist()| > 0
              && after[idx[a]].Datelist()[0] == g.predStartDate
              && after[idx[a]].Predictions().Some?
  {
    SaveAligns(g, q, endSaturday);
  }

  /** Units that already start at `d` and hold predictions come out of the
      loop at `d` unchanged. */
  lemma ResliceAtStartAll(units: seq<Unit>, idx: seq<nat>, d: Date)
    requires forall a :: 0 <= a < |idx| ==> idx[a] < |units|
    requires forall a :: 0 <= a < |idx| ==>
               && |units[idx[a]].Datelist()| > 0
               && units[idx[a]].Datelist()[0] == d
               && units[idx[a]].Predictions().Some?
    ensures Reslice(units, idx, ResliceAt(d)) == Done(units)
  {
    forall a | 0 <= a < |idx| ensures ResliceAt(d)(units[idx[a]]) == Done(units[idx[a]]) {
      ResliceAtStart(units[idx[a]], d);
    }
    ResliceFixed(units, idx, ResliceAt(d));
  }

  /** Exporting a second time with the same date changes nothing and yields
      the same table. */
  lemma SaveIdempotent(g: GeoModel, q: LabelQuery, endSaturday: bool)
    requires SavePredictions(g, q, endSaturday).table.Ok?
    ensures var r := SavePredictions(g, q, endSaturday);
            SavePredictions(r.model, q, endSaturday) == r
  {
    SaveSelectsAgain(g, q, endSaturday);
    SaveStartsAtDate(g, q, endSaturday);
    ResliceAtStartAll(SavePredictions(g, q, endSaturday).model.modelList, SaveSelection(g.modelList, q), g.predStartDate);
    SaveColumns(g, q, endSaturday);
  }
}

=== FILE: predictors.dfy ===
/**
 The forecasting unit (`Predictor` in lib/forecastlib/models.py): a private
 copy of the input sources, the target and the calendar, plus the two
 operations that reshape them, `data_process` and `predict`.

 The numerics the unit calls out to (the logit-percent and log transforms,
 the autoregressive stack, the ARGO prediction engine and the ensemble
 dispatcher) are not part of this model; they come in as an `Externals`
 record of functions, and the model only states how their inputs and outputs
 are sliced and aligned.
 */
module Predictors {
  import opened Common
  import opened Series
  import opened Calendar

  datatype Resolution = Week | Month | OtherResolution(text: string)

  /** The state of one forecasting unit. `inputs` is the source's `X`
      (source name to array), `name` its label. */
  datatype Predictor = Predictor(
    name: string,
    inputs: map<string, Block>,
    target: Series,
    targetReserve: Series,
    datelist: seq<Date>,
    startDate: Date,
    resolution: Resolution,
    verbose: bool,
    transformTarget: bool,
    predictions: Option<Series>)

  /** `Predictor.__init__`: the reserve is a copy of the target, the target
      is not transformed and there are no predictions yet. */
  function NewPredictor(inputs: map<string, Block>, target: Series, name: string,
                        startDate: Date, datelist: seq<Date>, resolution: Resolution, verbose: bool): (r: Predictor)
    ensures r.name == name && r.inputs == inputs && r.datelist == datelist
    ensures r.startDate == startDate && r.resolution == resolution && r.verbose == verbose
    ensures r.target == target && r.targetReserve == target
    ensures !r.transformTarget && r.predictions.None?
  {
    Predictor(name, inputs, target, target, datelist, startDate, resolution, verbose, false, None)
  }

  /** The `AR_terms` argument: none, an order `L` (lags 1..L), or a list of lags. */
  datatype ArTerms = NoAr | Order(n: int) | Lags(lags: seq<int>)

  /** What the prediction engine is given. */
  datatype EngineCall = EngineCall(design: Block, target: Series, transformed: bool, methodName: string,
                                   horizon: int, trainLen: int, inSample: bool)

  /** What an ensemble method is given. */
  datatype DispatchCall = DispatchCall(methodName: string, stack: Block, target: Series, horizon: int,
                                       trainLen: int, inSample: bool)

  /** The code this model calls but does not describe. A transform that
      returns `None` raises; the engine and the dispatcher always return. */
  datatype Externals = Externals(
    logitPercent: Value -> Option<Value>,
    inverseLogitPercent: Value -> Value,
    gtLog: Value -> Option<Value>,
    createArStack: (Series, ArTerms) -> Option<Block>,
    makePredictions: EngineCall -> Series,
    dispatch: DispatchCall -> Series)

  // ---------------------------------------------------------------- data_process

  /** The largest entry of a non-empty list, Python's `max`. */
  function MaxOf(xs: seq<int>): (m: int)
    requires |xs| > 0
    ensures m in xs
    ensures forall x :: x in xs ==> x <= m
  {
    if |xs| == 1 then xs[0]
    else
      var rest := MaxOf(xs[1..]);
      assert xs == [xs[0]] + xs[1..];
      if xs[0] < rest then rest else xs[0]
  }

  /** The number of leading rows the autoregressive step discards, or `None`
      when `AR_terms` is falsy and the step is skipped. */
  function Discard(ar: ArTerms): (d: Option<int>)
    ensures d.None? <==> ar == NoAr || ar == Order(0) || ar == Lags([])
    ensures ar.Order? && ar.n != 0 ==> d == Some(ar.n)
    ensures ar.Lags? && ar.lags != [] ==> d.Some? && d.value in ar.lags
    ensures ar.Lags? && ar.lags != [] ==> forall l :: l in ar.lags ==> l <= d.value
  {
    match ar
    case NoAr => None
    case Order(n) => if n == 0 then None else Some(n)
    case Lags(lags) => if lags == [] then None else Some(MaxOf(lags))
  }

  /** The discard count, 0 when the autoregressive step is skipped. */
  function DiscardCount(ar: ArTerms): int
  {
    match Discard(ar)
    case None => 0
    case Some(d) => d
  }

  /** Every cell of `s` is present and in the domain of `f`. */
  predicate Transformable(s: Series, f: Value -> Option<Value>)
  {
    forall i :: 0 <= i < |s| ==> s[i].Some? && f(s[i].value).Some?
  }

  /** `t` is `s` with `f` applied to every cell. */
  predicate TransformsTo(s: Series, t: Series, f: Value -> Option<Value>)
  {
    |s| == |t| && forall i :: 0 <= i < |s| ==> s[i].Some? && t[i].Some? && f(s[i].value) == Some(t[i].value)
  }

  lemma TransformableApply(s: Series, f: Value -> Option<Value>)
    ensures Apply(s, OnCell(f)).Some? <==> Transformable(s, f)
    ensures Apply(s, OnCell(f)).Some? ==> TransformsTo(s, Apply(s, OnCell(f)).value, f)
  {
    if Apply(s, OnCell(f)).Some? {
      forall i | 0 <= i < |s| ensures s[i].Some? && f(s[i].value).Some? {
        assert OnCell(f)(s[i]).Some?;
      }
    }
    if Transformable(s, f) {
      forall i | 0 <= i < |s| ensures OnCell(f)(s[i]).Some? {
      }
    }
  }

  /** The arguments of `data_process`. */
  datatype ProcessSpec = ProcessSpec(transformTarget: bool, transformAth: bool, transformGt: bool,
                                     arTerms: ArTerms)

  /** Lines 349-357: the logit-percent transform of the target. The flag is
      set exactly when the transform succeeds; on failure the target is kept. */
  function TransformTargetStep(p: Predictor, requested: bool, ext: Externals): (r: Predictor)
    ensures r == p.(target := r.target, transformTarget := r.transformTarget)
    ensures requested ==> (r.transformTarget <==> Transformable(p.target, ext.logitPercent))
    ensures !requested ==> r.transformTarget == p.transformTarget
    ensures requested && Transformable(p.target, ext.logitPercent) ==> TransformsTo(p.target, r.target, ext.logitPercent)
    ensures !(requested && Transformable(p.target, ext.logitPercent)) ==> r.target == p.target
  {
    TransformableApply(p.target, ext.logitPercent);
    if !requested then p
    else match Apply(p.target, OnCell(ext.logitPercent))
      case Some(t) => p.(target := t, transformTarget := true)
      case None => p.(transformTarget := false)
  }

  /** Whether `data_process` asks for a transform of input `key`. */
  predicate InputTransformRequested(spec: ProcessSpec, key: string)
  {
    (key == "ath" && spec.transformAth) || (key == "gt" && spec.transformGt)
  }

  /** The scalar transform `data_process` uses on input `key`. */
  function InputTransform(ext: Externals, key: string): Value -> Option<Value>
  {
    if key == "ath" then ext.logitPercent else ext.gtLog
  }

  /** Input `key` is asked to be transformed and the transform succeeds. */
  predicate InputTransformed(inputs: map<string, Block>, spec: ProcessSpec, ext: Externals, key: string)
    requires key in inputs
  {
    InputTransformRequested(spec, key) && Apply(inputs[key], OnRow(InputTransform(ext, key))).Some?
  }

  /** Lines 359-373: transform one input source if it is present and asked
      for; on failure the source is kept. */
  function TransformInput(inputs: map<string, Block>, key: string, requested: bool,
                          f: Value -> Option<Value>): (r: map<string, Block>)
    ensures r.Keys == inputs.Keys
    ensures forall k :: k in inputs && k != key ==> r[k] == inputs[k]
    ensures key in inputs && requested && Apply(inputs[key], OnRow(f)).Some? ==>
              r[key] == Apply(inputs[key], OnRow(f)).value
    ensures key in inputs && !(requested && Apply(inputs[key], OnRow(f)).Some?) ==> r[key] == inputs[key]
  {
    if requested && key in inputs then
      match Apply(inputs[key], OnRow(f))
      case Some(b) => inputs[key := b]
      case None => inputs
    else
      inputs
  }

  /** Lines 359-373: the Athenahealth and Google Trends transforms. Each
      source keeps its length; one whose transform is not asked for or fails
      is kept as it was. */
  function TransformInputs(inputs: map<string, Block>, spec: ProcessSpec, ext: Externals): (r: map<string, Block>)
    ensures r.Keys == inputs.Keys
    ensures forall k :: k in inputs ==> |r[k]| == |inputs[k]|
    ensures forall k :: k in inputs && !InputTransformed(inputs, spec, ext, k) ==> r[k] == inputs[k]
    ensures forall k :: k in inputs && InputTransformed(inputs, spec, ext, k) ==>
              r[k] == Apply(inputs[k], OnRow(InputTransform(ext, k))).value
  {
    TransformInput(TransformInput(inputs, "ath", spec.transformAth, ext.logitPercent),
                   "gt", spec.transformGt, ext.gtLog)
  }

  /** The longest length, at most `n`, that no source other than 'ar' is shorter than. */
  function FitLength(inputs: map<string, Block>, n: nat): (l: nat)
    ensures l <= n
    ensures forall k :: k in inputs && k != "ar" ==> l <= |inputs[k]|
    ensures l == n || exists k :: k in inputs && k != "ar" && |inputs[k]| == l
    decreases n
  {
    if forall k :: k in inputs && k != "ar" ==> n <= |inputs[k]| then n
    else FitLength(inputs, n - 1)
  }

  /** Lines 387-392 as intended: when 'ar' is not the only source, cut the
      autoregressive block to the length of the other sources (the shortest
      one when they differ). */
  function ArTruncate(inputs: map<string, Block>, ar: Block): (r: Block)
    ensures |r| <= |ar| && r == ar[..|r|]
    ensures forall k :: k in inputs && k != "ar" ==> |r| <= |inputs[k]|
    ensures |r| == |ar| || exists k :: k in inputs && k != "ar" && |inputs[k]| == |r|
  {
    ar[..FitLength(inputs, |ar|)]
  }

  /** Lines 387-392 as written. `firstKey` is the dictionary's first key in
      its iteration order; the loop re-reads that same key on every pass, so
      when it is 'ar' and there are other keys the loop never ends (`None`). */
  function ArTruncateAsWritten(inputs: map<string, Block>, firstKey: string): (r: Option<Block>)
    requires "ar" in inputs && firstKey in inputs
    ensures r.None? <==> |inputs| > 1 && firstKey == "ar"
    ensures r.Some? ==> |r.value| <= |inputs["ar"]| && r.value == inputs["ar"][..|r.value|]
    ensures r.Some? && |inputs| > 1 ==>
              |r.value| == (if |inputs["ar"]| <= |inputs[firstKey]| then |inputs["ar"]| else |inputs[firstKey]|)
    ensures |inputs| == 1 ==> r == Some(inputs["ar"])
  {
    if |inputs| > 1 then
      if firstKey == "ar" then None
      else Some(Upto(inputs["ar"], |inputs[firstKey]|))
    else
      Some(inputs["ar"])
  }

  /** The loop of lines 388-392 does not terminate when 'ar' comes first,
      as it does for a dataset holding only the Athenahealth source. */
  lemma ArLoopDivergesWhenArIsFirst(ar: Block, ath: Block)
    ensures ArTruncateAsWritten(map["ar" := ar, "ath" := ath], "ar").None?
  {
    var inputs := map["ar" := ar, "ath" := ath];
    assert inputs.Keys == {"ar"} + {"ath"};
  }

  /** When every source other than 'ar' has the same length, the as-written
      loop (if it ends) and the intended truncation agree. */
  lemma ArTruncateAgrees(inputs: map<string, Block>, firstKey: string)
    requires "ar" in inputs && firstKey in inputs && firstKey != "ar"
    requires forall k :: k in inputs && k != "ar" ==> |inputs[k]| == |inputs[firstKey]|
    ensures ArTruncateAsWritten(inputs, firstKey) == Some(ArTruncate(inputs, inputs["ar"]))
  {
    var others := inputs.Keys - {"ar", firstKey};
    assert inputs.Keys == {"ar", firstKey} + others;
    assert |{"ar", firstKey}| == 2;
    assert |inputs| > 1 by {
      assert |inputs.Keys| == |{"ar", firstKey}| + |others|;
    }
    var r := ArTruncate(inputs, inputs["ar"]);
    assert |r| <= |inputs[firstKey]|;
  }

  /** Lines 378-379: every source loses its first `d` rows. */
  function ShiftAll(inputs: map<string, Block>, d: int): (r: map<string, Block>)
    ensures r.Keys == inputs.Keys
    ensures forall k :: k in inputs ==> r[k] == From(inputs[k], d)
  {
    map k | k in inputs :: From(inputs[k], d)
  }

  /** Lines 375-400 once the discard count `d` is known: every source, the
      calendar and both targets lose their first `d` rows, then the 'ar'
      block is built from the target before the discard and cut to the other
      sources' length. A failed stack leaves 'ar' out. */
  function ArStep(p: Predictor, terms: ArTerms, d: int, ext: Externals): (r: Predictor)
    ensures r == p.(inputs := r.inputs, datelist := From(p.datelist, d), target := From(p.target, d),
                    targetReserve := From(p.targetReserve, d))
    ensures ext.createArStack(p.target, terms).None? ==> r.inputs.Keys == p.inputs.Keys
    ensures ext.createArStack(p.target, terms).Some? ==> r.inputs.Keys == p.inputs.Keys + {"ar"}
    ensures forall k :: k in p.inputs && k != "ar" ==> r.inputs[k] == From(p.inputs[k], d)
    ensures ext.createArStack(p.target, terms).None? && "ar" in p.inputs ==>
              r.inputs["ar"] == From(p.inputs["ar"], d)
  {
    var shifted := ShiftAll(p.inputs, d);
    var inputs :=
      match ext.createArStack(p.target, terms)
      case None => shifted
      case Some(ar) => shifted["ar" := ArTruncate(shifted, ar)];
    p.(inputs := inputs,
       datelist := From(p.datelist, d),
       target := From(p.target, d),
       targetReserve := From(p.targetReserve, d))
  }

  /** The autoregressive block added by the step is a prefix of the stacked
      lags, cut to the shortest other input, and no longer than any of them. */
  lemma ArStepBlock(p: Predictor, terms: ArTerms, d: int, ext: Externals)
    requires ext.createArStack(p.target, terms).Some?
    ensures var r := ArStep(p, terms, d, ext);
            var stack := ext.createArStack(p.target, terms).value;
            var ar := r.inputs["ar"];
            && |ar| <= |stack| && ar == stack[..|ar|]
            && (forall k :: k in r.inputs && k != "ar" ==> |ar| <= |r.inputs[k]|)
            && (|ar| == |stack| || exists k :: k in r.inputs && k != "ar" && |r.inputs[k]| == |ar|)
  {
  }

  /** A map holding 'ar' has a key other than 'ar' exactly when it has more than one. */
  lemma OtherKey<V>(m: map<string, V>)
    requires "ar" in m
    ensures |m| > 1 <==> m.Keys - {"ar"} != {}
  {
    if k :| k in m && k != "ar" {
      var others := m.Keys - {"ar", k};
      assert m.Keys == {"ar", k} + others;
      assert |{"ar", k}| == 2;
      assert |m.Keys| == |{"ar", k}| + |others|;
    } else {
      assert m.Keys == {"ar"};
    }
  }

  /** Lines 375-400 as written once the discard count `d` is known: as
      `ArStep`, except that the stacked block is cut by the loop of lines
      388-392 (`ArTruncateAsWritten`) over `X` with 'ar' already stored.
      `firstKey` is the first key of that dictionary in its iteration order;
      `None` when the loop never ends. */
  function ArStepAsWritten(p: Predictor, terms: ArTerms, d: int, ext: Externals, firstKey: string)
    : (r: Option<Predictor>)
    requires firstKey in p.inputs || firstKey == "ar"
    ensures r.None? <==> && ext.createArStack(p.target, terms).Some?
                         && firstKey == "ar"
                         && p.inputs.Keys - {"ar"} != {}
    ensures ext.createArStack(p.target, terms).None? ==> r == Some(ArStep(p, terms, d, ext))
  {
    var shifted := ShiftAll(p.inputs, d);
    var rest := p.(datelist := From(p.datelist, d),
                   target := From(p.target, d),
                   targetReserve := From(p.targetReserve, d));
    match ext.createArStack(p.target, terms)
    case None => Some(rest.(inputs := shifted))
    case Some(ar) =>
      assert shifted["ar" := ar].Keys - {"ar"} == p.inputs.Keys - {"ar"};
      OtherKey(shifted["ar" := ar]);
      match ArTruncateAsWritten(shifted["ar" := ar], firstKey)
      case None => None
      case Some(cut) => Some(rest.(inputs := shifted["ar" := cut]))
  }

  /** Two blocks of one length keep one length when the same rows are dropped. */
  lemma FromSameLength<T>(s: seq<T>, t: seq<T>, d: int)
    requires |s| == |t|
    ensures |From(s, d)| == |From(t, d)|
  {
    assert SliceIndex(|s|, d) == SliceIndex(|t|, d);
  }

  /** When the first key is not 'ar' and every source other than 'ar' has
      one length, the step as written ends and agrees with the intended one. */
  lemma ArStepAgrees(p: Predictor, terms: ArTerms, d: int, ext: Externals, firstKey: string)
    requires firstKey in p.inputs && firstKey != "ar"
    requires forall k :: k in p.inputs && k != "ar" ==> |p.inputs[k]| == |p.inputs[firstKey]|
    ensures ArStepAsWritten(p, terms, d, ext, firstKey) == Some(ArStep(p, terms, d, ext))
  {
    var r := ArStepAsWritten(p, terms, d, ext, firstKey);
    var e := ArStep(p, terms, d, ext);
    if ext.createArStack(p.target, terms).Some? {
      var ar := ext.createArStack(p.target, terms).value;
      var len := |From(p.inputs[firstKey], d)|;
      forall k | k in p.inputs && k != "ar" ensures |From(p.inputs[k], d)| == len {
        FromSameLength(p.inputs[k], p.inputs[firstKey], d);
      }
      ArStepBlock(p, terms, d, ext);
      var want := if |ar| <= len then |ar| else len;
      assert |e.inputs["ar"]| == want;
      var x := ShiftAll(p.inputs, d)["ar" := ar];
      assert firstKey in x.Keys - {"ar"};
      OtherKey(x);
      assert r.value.inputs["ar"] == ArTruncateAsWritten(x, firstKey).value;
      assert |r.value.inputs["ar"]| == want;
      assert r.value.inputs["ar"] == e.inputs["ar"];
      assert r.value.inputs == e.inputs;
    }
  }

  /** `Predictor.data_process` (lines 334-400) as evidently intended: the
      autoregressive block is cut to the other sources' length whatever
      their order (`ArTruncate`), and `AR_terms` is an `ArTerms`. The
      transform and stack failures are caught, so it always returns; the
      calendar and the reserve only lose the discarded rows. */
  function DataProcess(p: Predictor, spec: ProcessSpec, ext: Externals): (r: Predictor)
    ensures r.name == p.name && r.startDate == p.startDate && r.resolution == p.resolution
    ensures r.predictions == p.predictions
    ensures spec.transformTarget ==> (r.transformTarget <==> Transformable(p.target, ext.logitPercent))
    ensures !spec.transformTarget ==> r.transformTarget == p.transformTarget
    ensures r.datelist == From(p.datelist, DiscardCount(spec.arTerms))
    ensures r.targetReserve == From(p.targetReserve, DiscardCount(spec.arTerms))
  {
    var p1 := TransformTargetStep(p, spec.transformTarget, ext);
    var p2 := p1.(inputs := TransformInputs(p1.inputs, spec, ext));
    match Discard(spec.arTerms)
    case None => p2
    case Some(d) => ArStep(p2, spec.arTerms, d, ext)
  }

  /** The `AR_terms` argument as Python receives it. */
  datatype ArArg = PyNone | PyInt(n: int) | PyList(items: seq<int>) | PyStr(text: string)

  /** The default of `AR_terms` (line 334): the string 'None', not None. */
  const DefaultArArg: ArArg := PyStr("None")

  /** How the autoregressive step reads an argument it can handle; a
      string is read as no autoregression. */
  function ArTermsOf(arg: ArArg): ArTerms
  {
    match arg
    case PyNone => NoAr
    case PyInt(n) => Order(n)
    case PyList(items) => Lags(items)
    case PyStr(_) => NoAr
  }

  /** Lines 375-377 as written: `if AR_terms:` is false for None, 0, an empty
      list and an empty string; a non-empty string is truthy, `max` of it is
      a character, and slicing with a character raises TypeError. Every
      other argument gives the discard count `Discard` describes. */
  function ArDiscardAsWritten(arg: ArArg): (r: Result<Option<int>>)
    ensures r.Err? <==> arg.PyStr? && arg.text != []
    ensures r.Err? ==> r.error == SliceNotInteger
    ensures !(arg.PyStr? && arg.text != []) ==> r == Ok(Discard(ArTermsOf(arg)))
  {
    match arg
    case PyNone => Ok(None)
    case PyInt(n) => Ok(if n == 0 then None else Some(n))
    case PyList(items) => Ok(if items == [] then None else Some(MaxOf(items)))
    case PyStr(text) => if text == [] then Ok(None) else Err(SliceNotInteger)
  }

  /** `data_process` as written (lines 334-400), `AR_terms` as passed and
      `firstKey` the first key of `X` in its iteration order once 'ar' is
      stored (it matters only to the loop of lines 388-392). A non-empty
      string raises TypeError at the first slice (line 379, or 380 when
      there are no inputs), after the transforms of lines 349-373 took
      effect and before any row is discarded. `None` when the loop of lines
      388-392 never ends. */
  function DataProcessAsWritten(p: Predictor, transformTarget: bool, transformAth: bool, transformGt: bool,
                                arg: ArArg, firstKey: string, ext: Externals): (r: Option<Outcome<Predictor>>)
    requires firstKey in p.inputs || firstKey == "ar"
    ensures r.Some? && r.value.Raised? <==> arg.PyStr? && arg.text != []
    ensures r.Some? && r.value.Raised? ==> r.value.error == SliceNotInteger
    ensures r.Some? && r.value.Raised? ==>
              r.value.state.datelist == p.datelist && r.value.state.targetReserve == p.targetReserve
    ensures r.Some? && r.value.Raised? ==> r.value.state.inputs.Keys == p.inputs.Keys
    ensures r.Some? && r.value.Raised? ==>
              (transformTarget ==> (r.value.state.transformTarget <==> Transformable(p.target, ext.logitPercent)))
    ensures var spec := ProcessSpec(transformTarget, transformAth, transformGt, ArTermsOf(arg));
            r.None? <==> && !(arg.PyStr? && arg.text != [])
                         && Discard(spec.arTerms).Some?
                         && ext.createArStack(ArSource(p, spec, ext), spec.arTerms).Some?
                         && firstKey == "ar"
                         && p.inputs.Keys - {"ar"} != {}
  {
    var spec := ProcessSpec(transformTarget, transformAth, transformGt, ArTermsOf(arg));
    var p1 := TransformTargetStep(p, transformTarget, ext);
    var p2 := p1.(inputs := TransformInputs(p1.inputs, spec, ext));
    match ArDiscardAsWritten(arg)
    case Err(e) => Some(Raised(p2, e))
    case Ok(None) => Some(Done(p2))
    case Ok(Some(d)) =>
      match ArStepAsWritten(p2, spec.arTerms, d, ext, firstKey)
      case None => None
      case Some(q) => Some(Done(q))
  }

  /** With an argument other than a non-empty string, a first key other
      than 'ar' and sources other than 'ar' of one length, the method as
      written returns what the intended one does. */
  lemma DataProcessAgrees(p: Predictor, transformTarget: bool, transformAth: bool, transformGt: bool,
                          arg: ArArg, firstKey: string, ext: Externals)
    requires !(arg.PyStr? && arg.text != [])
    requires firstKey in p.inputs && firstKey != "ar"
    requires forall k :: k in p.inputs && k != "ar" ==> |p.inputs[k]| == |p.inputs[firstKey]|
    ensures DataProcessAsWritten(p, transformTarget, transformAth, transformGt, arg, firstKey, ext)
              == Some(Done(DataProcess(p, ProcessSpec(transformTarget, transformAth, transformGt, ArTermsOf(arg)), ext)))
  {
    var spec := ProcessSpec(transformTarget, transformAth, transformGt, ArTermsOf(arg));
    var p1 := TransformTargetStep(p, transformTarget, ext);
    var p2 := p1.(inputs := TransformInputs(p1.inputs, spec, ext));
    if d :| Discard(spec.arTerms) == Some(d) {
      ArStepAgrees(p2, spec.arTerms, d, ext, firstKey);
    }
  }

  /** With its default `AR_terms` the method as written always raises,
      whereas the evidently intended default (no autoregression) discards no
      row and adds no 'ar' source. */
  lemma DefaultArTermsRaises(p: Predictor, transformTarget: bool, transformAth: bool, transformGt: bool,
                             firstKey: string, ext: Externals)
    requires firstKey in p.inputs || firstKey == "ar"
    ensures var r := DataProcessAsWritten(p, transformTarget, transformAth, transformGt, DefaultArArg, firstKey, ext);
            r.Some? && r.value.Raised? && r.value.error == SliceNotInteger
    ensures var r := DataProcess(p, ProcessSpec(transformTarget, transformAth, transformGt, NoAr), ext);
            && r.datelist == p.datelist
            && r.targetReserve == p.targetReserve
            && r.inputs.Keys == p.inputs.Keys
  {
    var spec := ProcessSpec(transformTarget, transformAth, transformGt, NoAr);
    var p1 := TransformTargetStep(p, transformTarget, ext);
    assert DataProcess(p, spec, ext).inputs == TransformInputs(p1.inputs, spec, ext);
    FromZero(p.datelist);
    FromZero(p.targetReserve);
  }

  /** The target that the autoregressive stack is built from: the target
      after the (possibly failed) transform, before any row is discarded. */
  function ArSource(p: Predictor, spec: ProcessSpec, ext: Externals): Series
  {
    TransformTargetStep(p, spec.transformTarget, ext).target
  }

  /** Dropping the same leading rows keeps an element-wise transform. */
  lemma TransformsToFrom(s: Series, t: Series, f: Value -> Option<Value>, d: int)
    requires TransformsTo(s, t, f)
    ensures TransformsTo(From(s, d), From(t, d), f)
  {
    var s', t' := From(s, d), From(t, d);
    assert |s'| == |t'| by { assert SliceIndex(|s|, d) == SliceIndex(|t|, d); }
    forall i | 0 <= i < |s'|
      ensures s'[i].Some? && t'[i].Some? && f(s'[i].value) == Some(t'[i].value)
    {
      assert s'[i] == s[|s| - |s'| + i];
      assert t'[i] == t[|t| - |t'| + i];
    }
  }

  /** A target whose transform succeeds is transformed cell by cell; one
      whose transform is not asked for or fails is only shifted by the
      discard. */
  lemma DataProcessTarget(p: Predictor, spec: ProcessSpec, ext: Externals)
    ensures var r := DataProcess(p, spec, ext);
            spec.transformTarget && Transformable(p.target, ext.logitPercent) ==>
              TransformsTo(From(p.target, DiscardCount(spec.arTerms)), r.target, ext.logitPercent)
    ensures var r := DataProcess(p, spec, ext);
            !(spec.transformTarget && Transformable(p.target, ext.logitPercent)) ==>
              r.target == From(p.target, DiscardCount(spec.arTerms))
  {
    var t := ArSource(p, spec, ext);
    var d := DiscardCount(spec.arTerms);
    assert DataProcess(p, spec, ext).target == From(t, d) by {
      if Discard(spec.arTerms).None? {
        FromZero(t);
      }
    }
    if spec.transformTarget && Transformable(p.target, ext.logitPercent) {
      TransformsToFrom(p.target, t, ext.logitPercent, d);
    }
  }

  /** Every input other than 'ar' loses the same `d` leading rows as the
      calendar; one whose transform is not asked for or fails is otherwise
      untouched, one whose transform succeeds is transformed. */
  lemma DataProcessInputs(p: Predictor, spec: ProcessSpec, ext: Externals, k: string)
    requires k in p.inputs && k != "ar"
    ensures var r := DataProcess(p, spec, ext);
            var d := DiscardCount(spec.arTerms);
            && k in r.inputs
            && |r.inputs[k]| == |From(p.inputs[k], d)|
            && (!InputTransformed(p.inputs, spec, ext, k) ==> r.inputs[k] == From(p.inputs[k], d))
            && (InputTransformed(p.inputs, spec, ext, k) ==>
                  r.inputs[k] == From(Apply(p.inputs[k], OnRow(InputTransform(ext, k))).value, d))
  {
    var d := DiscardCount(spec.arTerms);
    var p1 := TransformTargetStep(p, spec.transformTarget, ext);
    var x := TransformInputs(p1.inputs, spec, ext);
    assert DataProcess(p, spec, ext).inputs[k] == From(x[k], d) by {
      if Discard(spec.arTerms).None? {
        FromZero(x[k]);
      }
    }
    assert SliceIndex(|x[k]|, d) == SliceIndex(|p.inputs[k]|, d);
  }

  /** When the autoregressive stack is built, the 'ar' input is a prefix of
      it, no longer than any other input, and as long as the stack or as the
      shortest other input. */
  lemma DataProcessArBlock(p: Predictor, spec: ProcessSpec, ext: Externals)
    requires Discard(spec.arTerms).Some?
    requires ext.createArStack(ArSource(p, spec, ext), spec.arTerms).Some?
    ensures var r := DataProcess(p, spec, ext);
            var stack := ext.createArStack(ArSource(p, spec, ext), spec.arTerms).value;
            && r.inputs.Keys == p.inputs.Keys + {"ar"}
            && |r.inputs["ar"]| <= |stack| && r.inputs["ar"] == stack[..|r.inputs["ar"]|]
            && (forall k :: k in r.inputs && k != "ar" ==> |r.inputs["ar"]| <= |r.inputs[k]|)
            && (|r.inputs["ar"]| == |stack| ||
                exists k :: k in r.inputs && k != "ar" && |r.inputs[k]| == |r.inputs["ar"]|)
  {
  }

  /** The loaders' alignment: the calendar and every input source except the
      derived 'ar' block are one row longer than the target, and the reserve
      is as long as the target. */
  ghost predicate Aligned(p: Predictor)
  {
    && |p.datelist| == |p.target| + 1
    && |p.targetReserve| == |p.target|
    && forall k :: k in p.inputs && k != "ar" ==> |p.inputs[k]| == |p.target| + 1
  }

  /** `data_process` keeps the alignment when it discards no more rows than
      the target has. */
  lemma DataProcessKeepsAligned(p: Predictor, spec: ProcessSpec, ext: Externals)
    requires Aligned(p)
    requires 0 <= DiscardCount(spec.arTerms) <= |p.target|
    ensures Aligned(DataProcess(p, spec, ext))
  {
    var r := DataProcess(p, spec, ext);
    DataProcessTarget(p, spec, ext);
    forall k | k in r.inputs && k != "ar" ensures |r.inputs[k]| == |r.target| + 1 {
      var p1 := TransformTargetStep(p, spec.transformTarget, ext);
      assert k in TransformInputs(p1.inputs, spec, ext);
      DataProcessInputs(p, spec, ext, k);
    }
  }

  // ---------------------------------------------------------------- predict

  /** `train_len`: 'default' or a width. */
  datatype TrainLen = DefaultLen | Width(n: int)

  /** `input_vars`: 'all' or a list of source names. */
  datatype InputVars = AllInputs | Terms(keys: seq<string>)

  /** The arguments of `predict` that the alignment depends on. */
  datatype PredictSpec = PredictSpec(inputVars: InputVars, methodName: string, horizon: int,
                                     trainLen: TrainLen, inSample: bool)

  /** The sources stacked into the design matrix, in stacking order. */
  function InputKeys(vars: InputVars): seq<string>
  {
    match vars
    case AllInputs => ["ath", "gt", "ar"]
    case Terms(keys) => keys
  }

  /** `[self.X[term] for term in keys]`: raises KeyError on the first missing source. */
  function Lookup(inputs: map<string, Block>, keys: seq<string>): (r: Result<seq<Block>>)
    ensures r.Ok? <==> forall i :: 0 <= i < |keys| ==> keys[i] in inputs
    ensures r.Ok? ==> |r.value| == |keys| && forall i :: 0 <= i < |keys| ==> r.value[i] == inputs[keys[i]]
    ensures r.Err? ==> exists i :: 0 <= i < |keys| && keys[i] !in inputs && r.error == KeyError(keys[i])
                                   && forall j :: 0 <= j < i ==> keys[j] in inputs
  {
    if keys == [] then Ok([])
    else if keys[0] !in inputs then Err(KeyError(keys[0]))
    else match Lookup(inputs, keys[1..])
      case Err(e) =>
        assert exists i :: 0 <= i < |keys[1..]| && keys[1..][i] !in inputs && e == KeyError(keys[1..][i])
                           && forall j :: 0 <= j < i ==> keys[1..][j] in inputs;
        var i :| 0 <= i < |keys[1..]| && keys[1..][i] !in inputs && e == KeyError(keys[1..][i])
                 && forall j :: 0 <= j < i ==> keys[1..][j] in inputs;
        assert keys[i + 1] !in inputs && forall j :: 0 <= j < i + 1 ==> keys[j] in inputs;
        Err(e)
      case Ok(rest) => Ok([inputs[keys[0]]] + rest)
  }

  /** Lines 427-430: the design matrix `X_stack`. */
  function Design(inputs: map<string, Block>, vars: InputVars): (r: Result<Block>)
    ensures r.Ok? <==> (forall i :: 0 <= i < |InputKeys(vars)| ==> InputKeys(vars)[i] in inputs)
                       && |InputKeys(vars)| > 0
                       && forall i :: 0 <= i < |InputKeys(vars)| ==>
                            |inputs[InputKeys(vars)[i]]| == |inputs[InputKeys(vars)[0]]|
    ensures r.Ok? ==> |r.value| == |inputs[InputKeys(vars)[0]]|
    ensures r.Ok? ==> Lookup(inputs, InputKeys(vars)).Ok?
    ensures r.Ok? ==> forall t :: 0 <= t < |r.value| ==>
              r.value[t] == JoinRow(Lookup(inputs, InputKeys(vars)).value, t)
  {
    match Lookup(inputs, InputKeys(vars))
    case Err(e) => Err(e)
    case Ok(blocks) =>
      match HStack(blocks)
      case None => Err(ShapeMismatch)
      case Some(b) => Ok(b)
  }

  /** Lines 433-437: the training window width; `None` when it stays 'default'. */
  function TrainWidth(t: TrainLen, res: Resolution): (w: Option<int>)
    ensures t.Width? ==> w == Some(t.n)
    ensures t == DefaultLen ==> (w == Some(104) <==> res == Week)
    ensures t == DefaultLen ==> (w == Some(24) <==> res == Month)
    ensures w.None? <==> t == DefaultLen && res.OtherResolution?
  {
    match t
    case Width(n) => Some(n)
    case DefaultLen =>
      match res
      case Week => Some(104)
      case Month => Some(24)
      case OtherResolution(_) => None
  }

  /** What `predict` validates before it changes anything: the design
      matrix, the position `shift` of the start date, the window width. */
  datatype Window = Window(design: Block, width: int, shift: nat)

  /** Lines 427-449, which either raise or yield the window. With `verbose`
      set, line 449 reads the calendar at `shift - train_len` in sample,
      which is past its end when a negative `train_len` moves it there. */
  function PlanWindow(p: Predictor, spec: PredictSpec): (r: Result<Window>)
    ensures r.Ok? ==> Design(p.inputs, spec.inputVars) == Ok(r.value.design)
    ensures r.Ok? ==> TrainWidth(spec.trainLen, p.resolution) == Some(r.value.width)
    ensures r.Ok? ==> p.startDate in p.datelist && r.value.shift == IndexOf(p.datelist, p.startDate)
    ensures r.Ok? ==> 0 <= r.value.shift - r.value.width && r.value.shift < |p.datelist|
    ensures Design(p.inputs, spec.inputVars).Err? ==> r == Err(Design(p.inputs, spec.inputVars).error)
    ensures Design(p.inputs, spec.inputVars).Ok? && p.startDate !in p.datelist ==> r == Err(DateNotFound(p.startDate))
    ensures (&& Design(p.inputs, spec.inputVars).Ok?
             && p.startDate in p.datelist
             && TrainWidth(spec.trainLen, p.resolution).None?) ==> r == Err(UnresolvedTrainLen)
    ensures (&& Design(p.inputs, spec.inputVars).Ok?
             && p.startDate in p.datelist
             && TrainWidth(spec.trainLen, p.resolution).Some?
             && TrainWidth(spec.trainLen, p.resolution).value <= IndexOf(p.datelist, p.startDate)
             && !(p.verbose && spec.inSample &&
                  |p.datelist| <= IndexOf(p.datelist, p.startDate) - TrainWidth(spec.trainLen, p.resolution).value))
              ==> r.Ok?
    ensures r == Err(NotEnoughHistory) <==>
              && Design(p.inputs, spec.inputVars).Ok?
              && p.startDate in p.datelist
              && TrainWidth(spec.trainLen, p.resolution).Some?
              && IndexOf(p.datelist, p.startDate) < TrainWidth(spec.trainLen, p.resolution).value
    ensures r.Err? && r.error.DateIndexOutOfRange? <==>
              && Design(p.inputs, spec.inputVars).Ok?
              && p.startDate in p.datelist
              && TrainWidth(spec.trainLen, p.resolution).Some?
              && p.verbose && spec.inSample
              && 0 <= IndexOf(p.datelist, p.startDate) - TrainWidth(spec.trainLen, p.resolution).value
              && |p.datelist| <= IndexOf(p.datelist, p.startDate) - TrainWidth(spec.trainLen, p.resolution).value
  {
    match Design(p.inputs, spec.inputVars)
    case Err(e) => Err(e)
    case Ok(x) =>
      if p.startDate !in p.datelist then Err(DateNotFound(p.startDate))
      else
        match TrainWidth(spec.trainLen, p.resolution)
        case None => Err(UnresolvedTrainLen)
        case Some(w) =>
          var shift := IndexOf(p.datelist, p.startDate);
          if shift - w < 0 then Err(NotEnoughHistory)
          else if p.verbose && spec.inSample && |p.datelist| <= shift - w then Err(DateIndexOutOfRange(shift - w))
          else Ok(Window(x, w, shift))
  }

  /** The first calendar index kept: `shift - train_len * in_sample`. */
  function DatesStart(w: Window, inSample: bool): int
  {
    if inSample then w.shift - w.width else w.shift
  }

  /** Line 463: the engine sees the design matrix and the target from
      `shift_vars` on, and nothing before. */
  function EngineCallOf(p: Predictor, spec: PredictSpec, w: Window): EngineCall
  {
    EngineCall(From(w.design, w.shift - w.width), From(p.target, w.shift - w.width), p.transformTarget,
               spec.methodName, spec.horizon, w.width, spec.inSample)
  }

  /** The target as the model reports it: inverted when it was transformed. */
  function TargetView(p: Predictor, ext: Externals): Series
  {
    if p.transformTarget then MapSeq(p.target, InverseCell(ext.inverseLogitPercent)) else p.target
  }

  /** Lines 453-481, once the window is known. */
  function RunWindow(p: Predictor, spec: PredictSpec, w: Window, ext: Externals): Predictor
  {
    var call := EngineCallOf(p, spec, w);
    var raw := ext.makePredictions(call);
    var inv := InverseCell(ext.inverseLogitPercent);
    var preds := if p.transformTarget then MapSeq(raw, inv) else raw;
    var t := if p.transformTarget then MapSeq(call.target, inv) else call.target;
    p.(target := if spec.inSample then t else From(t, w.width),
       targetReserve := From(p.targetReserve, w.shift - w.width),
       datelist := From(p.datelist, DatesStart(w, spec.inSample)),
       predictions := Some(Pad(preds, spec.horizon)))
  }

  /** `Predictor.predict` (lines 402-491). It raises only before touching the
      predictor, and then leaves it as it was. */
  function Predict(p: Predictor, spec: PredictSpec, ext: Externals): (r: Outcome<Predictor>)
    ensures r.Raised? <==> PlanWindow(p, spec).Err?
    ensures r.Raised? ==> r.state == p && r.error == PlanWindow(p, spec).error
    ensures r.Done? ==> r.state.predictions.Some?
    ensures r.state.name == p.name && r.state.startDate == p.startDate && r.state.inputs == p.inputs
  {
    match PlanWindow(p, spec)
    case Err(e) => Raised(p, e)
    case Ok(w) => Done(RunWindow(p, spec, w, ext))
  }

  /** The fatal assertion of line 445: with a usable design matrix, start
      date and width, `predict` raises it exactly when fewer than `width`
      dates precede the start date, and the predictor is left unchanged;
      otherwise `predict` returns, unless the verbose print of line 449
      reads past the end of the calendar. */
  lemma PredictNeedsHistory(p: Predictor, spec: PredictSpec, ext: Externals, width: int)
    requires Design(p.inputs, spec.inputVars).Ok?
    requires p.startDate in p.datelist
    requires TrainWidth(spec.trainLen, p.resolution) == Some(width)
    ensures Predict(p, spec, ext) == Raised(p, NotEnoughHistory) <==> IndexOf(p.datelist, p.startDate) < width
    ensures Predict(p, spec, ext).Done? <==>
              && width <= IndexOf(p.datelist, p.startDate)
              && !(p.verbose && spec.inSample && |p.datelist| <= IndexOf(p.datelist, p.startDate) - width)
  {
  }

  /** What a `predict` call that returns has checked, and the state it builds. */
  lemma PredictDone(p: Predictor, spec: PredictSpec, ext: Externals, width: int)
    requires Predict(p, spec, ext).Done?
    requires TrainWidth(spec.trainLen, p.resolution) == Some(width)
    ensures p.startDate in p.datelist && Design(p.inputs, spec.inputVars).Ok?
    ensures width <= IndexOf(p.datelist, p.startDate) < |p.datelist|
    ensures PlanWindow(p, spec) ==
              Ok(Window(Design(p.inputs, spec.inputVars).value, width, IndexOf(p.datelist, p.startDate)))
    ensures Predict(p, spec, ext).state == RunWindow(p, spec, PlanWindow(p, spec).value, ext)
  {
  }

  /** The target `RunWindow` reports before any out-of-sample cut: the
      windowed target, inverted when it was transformed. */
  lemma RunWindowTarget(p: Predictor, spec: PredictSpec, w: Window, ext: Externals)
    ensures var t := From(p.target, w.shift - w.width);
            var shown := if p.transformTarget then MapSeq(t, InverseCell(ext.inverseLogitPercent)) else t;
            RunWindow(p, spec, w, ext).target == (if spec.inSample then shown else From(shown, w.width))
  {
    var call := EngineCallOf(p, spec, w);
    assert call.target == From(p.target, w.shift - w.width);
  }

  /** A window changes only the targets, the calendar and the predictions:
      the reserve and the design lose the `shift - width` rows before the
      training window, the calendar starts at `DatesStart`, and the
      predictions are the engine's output behind `2 * horizon` missing
      markers. */
  lemma RunWindowFrame(p: Predictor, spec: PredictSpec, w: Window, ext: Externals)
    ensures var r := RunWindow(p, spec, w, ext);
            && r.name == p.name && r.inputs == p.inputs && r.startDate == p.startDate
            && r.resolution == p.resolution && r.transformTarget == p.transformTarget
            && r.targetReserve == From(p.targetReserve, w.shift - w.width)
            && r.datelist == From(p.datelist, DatesStart(w, spec.inSample))
            && r.predictions.Some?
            && |r.predictions.value| == PadCount(spec.horizon) + |ext.makePredictions(EngineCallOf(p, spec, w))|
  {
  }

  /** Out of sample, a window at `shift` keeps the calendar and the reported
      target from `shift` on. */
  lemma RunWindowOutOfSample(p: Predictor, spec: PredictSpec, w: Window, ext: Externals)
    requires !spec.inSample
    requires 0 <= w.width <= w.shift
    ensures RunWindow(p, spec, w, ext).datelist == From(p.datelist, w.shift)
    ensures RunWindow(p, spec, w, ext).target == From(TargetView(p, ext), w.shift)
  {
    var sv := w.shift - w.width;
    var inv := InverseCell(ext.inverseLogitPercent);
    var t := From(p.target, sv);
    var r := RunWindow(p, spec, w, ext);
    RunWindowTarget(p, spec, w, ext);
    FromFrom(p.target, sv, w.width);
    assert From(t, w.width) == From(p.target, w.shift);
    if p.transformTarget {
      assert r.target == From(MapSeq(t, inv), w.width);
      MapFrom(t, inv, w.width);
      MapFrom(p.target, inv, w.shift);
    } else {
      assert r.target == From(t, w.width);
    }
  }

  /** Out of sample, the calendar starts at the start date and the target
      loses `shift_vars + train_len = shift` leading entries, as many as the
      calendar. */
  lemma PredictOutOfSample(p: Predictor, spec: PredictSpec, ext: Externals, width: int)
    requires Predict(p, spec, ext).Done?
    requires !spec.inSample
    requires TrainWidth(spec.trainLen, p.resolution) == Some(width) && 0 <= width
    ensures p.startDate in p.datelist
    ensures var r := Predict(p, spec, ext).state;
            var shift := IndexOf(p.datelist, p.startDate);
            && shift < |p.datelist|
            && r.datelist == p.datelist[shift..]
            && r.datelist[0] == p.startDate
            && r.target == From(TargetView(p, ext), shift)
            && (shift <= |p.target| ==> |p.target| - |r.target| == shift == |p.datelist| - |r.datelist|)
  {
    PredictDone(p, spec, ext, width);
    RunWindowOutOfSample(p, spec, PlanWindow(p, spec).value, ext);
  }

  /** In sample, a window keeps the calendar, the reported target and the
      reserve from `shift - width` on. */
  lemma RunWindowInSample(p: Predictor, spec: PredictSpec, w: Window, ext: Externals)
    requires spec.inSample
    ensures RunWindow(p, spec, w, ext).datelist == From(p.datelist, w.shift - w.width)
    ensures RunWindow(p, spec, w, ext).target == From(TargetView(p, ext), w.shift - w.width)
  {
    RunWindowTarget(p, spec, w, ext);
    if p.transformTarget {
      MapFrom(p.target, InverseCell(ext.inverseLogitPercent), w.shift - w.width);
    }
  }

  /** In sample, the calendar and the target both start at `shift - train_len`. */
  lemma PredictInSample(p: Predictor, spec: PredictSpec, ext: Externals, width: int)
    requires Predict(p, spec, ext).Done?
    requires spec.inSample
    requires TrainWidth(spec.trainLen, p.resolution) == Some(width) && 0 <= width
    ensures p.startDate in p.datelist
    ensures var r := Predict(p, spec, ext).state;
            var start := IndexOf(p.datelist, p.startDate) - width;
            && 0 <= start < |p.datelist|
            && r.datelist == p.datelist[start..]
            && r.target == From(TargetView(p, ext), start)
            && r.targetReserve == From(p.targetReserve, start)
  {
    PredictDone(p, spec, ext, width);
    var w := PlanWindow(p, spec).value;
    RunWindowInSample(p, spec, w, ext);
    var start := IndexOf(p.datelist, p.startDate) - width;
    assert w.shift - w.width == start;
    assert From(p.datelist, start) == p.datelist[start..];
  }

  /** A series transformed by `f` is restored by an inverse of `f`. */
  lemma TransformsToInverts(s: Series, t: Series, f: Value -> Option<Value>, g: Value -> Value)
    requires TransformsTo(s, t, f) && Inverts(f, g)
    ensures MapSeq(t, InverseCell(g)) == s
  {
    forall i | 0 <= i < |s| ensures InverseCell(g)(t[i]) == s[i] {
      assert f(s[i].value) == Some(t[i].value);
    }
  }

  /** After `data_process` of a fresh predictor (reserve equal to the
      target, no transform yet), the target as `predict` reports it is the
      reserve, whether or not the logit transform was applied. */
  lemma DataProcessViewIsReserve(p: Predictor, spec: ProcessSpec, ext: Externals)
    requires p.targetReserve == p.target && !p.transformTarget
    requires Inverts(ext.logitPercent, ext.inverseLogitPercent)
    ensures TargetView(DataProcess(p, spec, ext), ext) == DataProcess(p, spec, ext).targetReserve
  {
    var r := DataProcess(p, spec, ext);
    DataProcessTarget(p, spec, ext);
    if spec.transformTarget && Transformable(p.target, ext.logitPercent) {
      TransformsToInverts(From(p.target, DiscardCount(spec.arTerms)), r.target,
                          ext.logitPercent, ext.inverseLogitPercent);
    }
  }

  /** The check left commented out at line 474: for a fresh predictor that
      goes through `data_process` and `predict`, undoing the transform gives
      back the reserve. In sample the two are equal; out of sample the
      target has also lost the `train_len` entries of line 478. */
  lemma PredictRestoresReserve(p: Predictor, ps: ProcessSpec, qs: PredictSpec, ext: Externals, width: int)
    requires p.targetReserve == p.target && !p.transformTarget
    requires Inverts(ext.logitPercent, ext.inverseLogitPercent)
    requires TrainWidth(qs.trainLen, p.resolution) == Some(width) && 0 <= width
    ensures var r := Predict(DataProcess(p, ps, ext), qs, ext);
            r.Done? && qs.inSample ==> r.state.target == r.state.targetReserve
    ensures var r := Predict(DataProcess(p, ps, ext), qs, ext);
            r.Done? && !qs.inSample ==> r.state.target == From(r.state.targetReserve, width)
  {
    DataProcessViewIsReserve(p, ps, ext);
    if Predict(DataProcess(p, ps, ext), qs, ext).Done? {
      PredictReportsReserve(DataProcess(p, ps, ext), qs, ext, width);
    }
  }

  /** When the reported target of a predictor is its reserve, it still is
      after `predict` in sample, and is the reserve less `train_len`
      leading entries out of sample. */
  lemma PredictReportsReserve(q: Predictor, qs: PredictSpec, ext: Externals, width: int)
    requires TargetView(q, ext) == q.targetReserve
    requires Predict(q, qs, ext).Done?
    requires TrainWidth(qs.trainLen, q.resolution) == Some(width) && 0 <= width
    ensures var r := Predict(q, qs, ext).state;
            qs.inSample ==> r.target == r.targetReserve
    ensures var r := Predict(q, qs, ext).state;
            !qs.inSample ==> r.target == From(r.targetReserve, width)
  {
    PredictDone(q, qs, ext, width);
    if qs.inSample {
      RunWindowReserveInSample(q, qs, PlanWindow(q, qs).value, ext);
    } else {
      RunWindowReserveOutOfSample(q, qs, PlanWindow(q, qs).value, ext);
    }
  }

  /** In sample, a window whose reported target is its reserve keeps them equal. */
  lemma RunWindowReserveInSample(q: Predictor, qs: PredictSpec, w: Window, ext: Externals)
    requires TargetView(q, ext) == q.targetReserve
    requires qs.inSample
    ensures RunWindow(q, qs, w, ext).target == RunWindow(q, qs, w, ext).targetReserve
  {
    RunWindowInSample(q, qs, w, ext);
  }

  /** Out of sample, the reported target of such a window is its reserve
      less the `width` leading entries. */
  lemma RunWindowReserveOutOfSample(q: Predictor, qs: PredictSpec, w: Window, ext: Externals)
    requires TargetView(q, ext) == q.targetReserve
    requires !qs.inSample
    requires 0 <= w.width <= w.shift
    ensures RunWindow(q, qs, w, ext).target == From(RunWindow(q, qs, w, ext).targetReserve, w.width)
  {
    var r := RunWindow(q, qs, w, ext);
    var sv: nat := w.shift - w.width;
    RunWindowOutOfSample(q, qs, w, ext);
    assert r.target == From(q.targetReserve, w.shift);
    RunWindowFrame(q, qs, w, ext);
    assert r.targetReserve == From(q.targetReserve, sv);
    FromFrom(q.targetReserve, sv, w.width);
  }

  /** A window's predictions are the padded engine output, inverted when the
      target was transformed. */
  lemma RunWindowPads(p: Predictor, spec: PredictSpec, w: Window, ext: Externals)
    ensures var preds := RunWindow(p, spec, w, ext).predictions;
            var out := ext.makePredictions(EngineCallOf(p, spec, w));
            var shown := if p.transformTarget then MapSeq(out, InverseCell(ext.inverseLogitPercent)) else out;
            preds == Some(Pad(shown, spec.horizon))
  {
  }

  /** The predictions are `2 * horizon` missing markers followed by the
      engine's output for the windowed design matrix and target, inverted
      when the target was transformed and otherwise unchanged. */
  lemma PredictPads(p: Predictor, spec: PredictSpec, ext: Externals, width: int)
    requires Predict(p, spec, ext).Done?
    requires TrainWidth(spec.trainLen, p.resolution) == Some(width)
    ensures p.startDate in p.datelist && Design(p.inputs, spec.inputVars).Ok?
    ensures var r := Predict(p, spec, ext).state;
            var start := IndexOf(p.datelist, p.startDate) - width;
            var call := EngineCall(From(Design(p.inputs, spec.inputVars).value, start), From(p.target, start),
                                   p.transformTarget, spec.methodName, spec.horizon, width, spec.inSample);
            var out := ext.makePredictions(call);
            && r.predictions.Some?
            && |r.predictions.value| == PadCount(spec.horizon) + |out|
            && (forall i :: 0 <= i < PadCount(spec.horizon) ==> r.predictions.value[i] == None)
            && (!p.transformTarget ==> r.predictions.value[PadCount(spec.horizon)..] == out)
            && (p.transformTarget ==>
                  r.predictions.value[PadCount(spec.horizon)..] == MapSeq(out, InverseCell(ext.inverseLogitPercent)))
  {
    PredictDone(p, spec, ext, width);
    var w := PlanWindow(p, spec).value;
    RunWindowPads(p, spec, w, ext);
  }

  /** A calendar one entry longer than the target stays so after `predict`. */
  lemma PredictKeepsCalendarOffset(p: Predictor, spec: PredictSpec, ext: Externals, width: int)
    requires Predict(p, spec, ext).Done?
    requires TrainWidth(spec.trainLen, p.resolution) == Some(width) && 0 <= width
    requires |p.datelist| == |p.target| + 1
    ensures var r := Predict(p, spec, ext).state;
            |r.datelist| == |r.target| + 1
  {
    if spec.inSample {
      PredictInSample(p, spec, ext, width);
    } else {
      PredictOutOfSample(p, spec, ext, width);
    }
  }

  /** Calendar [10, 17] with start date 17, in sample, `train_len = -1`: the
      assertion of line 445 passes (1 - (-1) >= 0), and the verbose print of
      line 449 reads index 2 of a two-date calendar. Without `verbose`,
      `predict` returns with the calendar cut to nothing. */
  lemma VerboseInSamplePrintRaises(p: Predictor, spec: PredictSpec, ext: Externals)
    requires p.datelist == [10, 17] && p.startDate == 17
    requires spec.inSample && spec.trainLen == Width(-1)
    requires Design(p.inputs, spec.inputVars).Ok?
    ensures p.verbose ==> Predict(p, spec, ext) == Raised(p, DateIndexOutOfRange(2))
    ensures !p.verbose ==> Predict(p, spec, ext).Done? && Predict(p, spec, ext).state.datelist == []
  {
    assert IndexOf(p.datelist, p.startDate) == 1;
  }

  /** On a weekly calendar from `first`, with the start date `k` weeks in,
      `predict` returns exactly when `k` weeks of history fit the width. */
  lemma PredictWeekly(p: Predictor, spec: PredictSpec, ext: Externals, width: int, first: Date, k: nat)
    requires p.datelist == Weekly(first, |p.datelist|)
    requires k < |p.datelist| && p.startDate == first + 7 * k
    requires Design(p.inputs, spec.inputVars).Ok?
    requires TrainWidth(spec.trainLen, p.resolution) == Some(width)
    ensures Predict(p, spec, ext).Done? <==> width <= k && !(p.verbose && spec.inSample && |p.datelist| <= k - width)
  {
    IndexOfWeekly(first, |p.datelist|, k);
    PredictNeedsHistory(p, spec, ext, width);
  }

  /** Once `predict` has returned on a weekly calendar, the calendar it leaves
      is weekly again from week `s`: the start date out of sample, the first
      training week in sample. */
  lemma PredictWeeklyCalendar(p: Predictor, spec: PredictSpec, ext: Externals, width: int, first: Date, k: nat, s: nat)
    requires p.datelist == Weekly(first, |p.datelist|)
    requires k < |p.datelist| && p.startDate == first + 7 * k
    requires Predict(p, spec, ext).Done?
    requires TrainWidth(spec.trainLen, p.resolution) == Some(width) && 0 <= width
    requires s == if spec.inSample then k - width else k
    ensures s <= |p.datelist|
    ensures Predict(p, spec, ext).state.datelist == Weekly(first + 7 * s, |p.datelist| - s)
  {
    assert p.startDate in p.datelist && IndexOf(p.datelist, p.startDate) == k by {
      IndexOfWeekly(first, |p.datelist|, k);
    }
    var dates := Predict(p, spec, ext).state.datelist;
    assert s <= |p.datelist| && dates == p.datelist[s..] by {
      PredictSuffix(p, spec, ext, width, k, s);
    }
    WeeklyAfter(first, p.datelist, s, dates);
  }

  /** The calendar `predict` leaves is the suffix from week `s` of the old one. */
  lemma PredictSuffix(p: Predictor, spec: PredictSpec, ext: Externals, width: int, k: nat, s: nat)
    requires p.startDate in p.datelist && IndexOf(p.datelist, p.startDate) == k
    requires Predict(p, spec, ext).Done?
    requires TrainWidth(spec.trainLen, p.resolution) == Some(width) && 0 <= width
    requires s == if spec.inSample then k - width else k
    ensures s <= |p.datelist| && Predict(p, spec, ext).state.datelist == p.datelist[s..]
  {
    var dates := Predict(p, spec, ext).state.datelist;
    if spec.inSample {
      PredictInSample(p, spec, ext, width);
      assert s == IndexOf(p.datelist, p.startDate) - width;
      assert dates == p.datelist[IndexOf(p.datelist, p.startDate) - width..];
    } else {
      PredictOutOfSample(p, spec, ext, width);
      assert s == IndexOf(p.datelist, p.startDate);
      assert dates == p.datelist[IndexOf(p.datelist, p.startDate)..];
    }
  }
}

=== FILE: series.dfy ===
/**
 Time series and input blocks: one cell per date for the target and the
 predictions, one row of cells per date for an input source. A missing value
 (NaN) is a `None` cell. This module also holds the horizon padding, the
 horizontal stacking of blocks (np.hstack) and the element-wise transforms.
 */
module Series {
  import opened Common

  /** A data value; the model never looks inside one. */
  type Value(==, !new)

  /** One observation; `None` is NaN. */
  type Cell = Option<Value>

  /** A one-dimensional array: the target, a prediction array. */
  type Series = seq<Cell>

  /** One row of a two-dimensional input array. */
  type Row = seq<Cell>

  /** A two-dimensional input array, one row per date. */
  type Block = seq<Row>

  /** The number of missing markers put in front of a horizon-`horizon`
      prediction: `[np.nan] * (horizon * 2)`, which is empty for a negative horizon. */
  function PadCount(horizon: int): (k: nat)
    ensures 0 <= horizon ==> k == 2 * horizon
    ensures horizon < 0 ==> k == 0
  {
    if 0 < horizon then 2 * horizon else 0
  }

  /** `k` missing markers. */
  function Missing(k: nat): (r: Series)
    ensures |r| == k
    ensures forall i :: 0 <= i < k ==> r[i] == None
  {
    seq(k, _ => None)
  }

  /** np.insert(s, 0, [np.nan] * (horizon * 2)). */
  function Pad(s: Series, horizon: int): (r: Series)
    ensures |r| == PadCount(horizon) + |s|
    ensures forall i :: 0 <= i < PadCount(horizon) ==> r[i] == None
    ensures r[PadCount(horizon)..] == s
  {
    Missing(PadCount(horizon)) + s
  }

  /** Stripping `2 * horizon` entries from a padded array gives back the
      unpadded one: what the ensemble does to each member's predictions. */
  lemma StripPad(s: Series, horizon: int)
    requires 0 <= horizon
    ensures From(Pad(s, horizon), 2 * horizon) == s
  {
    assert From(Pad(s, horizon), 2 * horizon) == Pad(s, horizon)[PadCount(horizon)..];
  }

  /** The row count that every block in `blocks` shares with the first one. */
  predicate SameHeight(blocks: seq<Block>)
  {
    forall j :: 0 <= j < |blocks| ==> |blocks[j]| == |blocks[0]|
  }

  /** Row `t` of every block, laid side by side. */
  function JoinRow(blocks: seq<Block>, t: nat): (r: Row)
    requires forall j :: 0 <= j < |blocks| ==> t < |blocks[j]|
    decreases |blocks|
  {
    if blocks == [] then [] else blocks[0][t] + JoinRow(blocks[1..], t)
  }

  /** np.hstack over two-dimensional arrays: fails on an empty list and on
      arrays with different row counts; otherwise row `t` of the result is the
      concatenation of row `t` of each array, in list order. */
  function HStack(blocks: seq<Block>): (r: Option<Block>)
    ensures r.Some? <==> |blocks| > 0 && SameHeight(blocks)
    ensures r.Some? ==> |r.value| == |blocks[0]|
    ensures r.Some? ==> forall t :: 0 <= t < |r.value| ==> r.value[t] == JoinRow(blocks, t)
  {
    if |blocks| > 0 && SameHeight(blocks) then
      Some(seq(|blocks[0]|, t requires 0 <= t < |blocks[0]| => JoinRow(blocks, t)))
    else
      None
  }

  /** `s[:, None]`: a series as a one-column block. */
  function Column(s: Series): (b: Block)
    ensures |b| == |s|
    ensures forall t :: 0 <= t < |s| ==> b[t] == [s[t]]
  {
    seq(|s|, t requires 0 <= t < |s| => [s[t]])
  }

  /** Each series as a one-column block. */
  function Columns(cols: seq<Series>): (blocks: seq<Block>)
    ensures |blocks| == |cols|
    ensures forall j :: 0 <= j < |cols| ==> blocks[j] == Column(cols[j])
  {
    seq(|cols|, j requires 0 <= j < |cols| => Column(cols[j]))
  }

  /** Row `t` of side-by-side columns holds the `t`-th entry of each series. */
  lemma {:induction false} JoinColumns(cols: seq<Series>, t: nat)
    requires forall j :: 0 <= j < |cols| ==> t < |cols[j]|
    ensures forall j :: 0 <= j < |cols| ==> t < |Columns(cols)[j]|
    ensures var row := JoinRow(Columns(cols), t);
            |row| == |cols| && forall j :: 0 <= j < |cols| ==> row[j] == cols[j][t]
    decreases |cols|
  {
    var blocks := Columns(cols);
    if cols != [] {
      assert blocks[1..] == Columns(cols[1..]);
      JoinColumns(cols[1..], t);
      assert JoinRow(blocks, t) == [cols[0][t]] + JoinRow(Columns(cols[1..]), t);
    }
  }

  /** Stacking series side by side succeeds exactly when there is at least one
      and all have one length; entry (t, j) of the stack is entry t of series j. */
  lemma StackColumns(cols: seq<Series>)
    ensures HStack(Columns(cols)).Some? <==> |cols| > 0 && forall j :: 0 <= j < |cols| ==> |cols[j]| == |cols[0]|
    ensures HStack(Columns(cols)).Some? ==>
              var stack := HStack(Columns(cols)).value;
              && |stack| == |cols[0]|
              && forall t, j :: 0 <= t < |stack| && 0 <= j < |cols| ==> |stack[t]| == |cols| && stack[t][j] == cols[j][t]
  {
    var blocks := Columns(cols);
    if HStack(blocks).Some? {
      var stack := HStack(blocks).value;
      forall j | 0 <= j < |cols| ensures |cols[j]| == |stack| {
        assert |blocks[j]| == |blocks[0]|;
      }
      forall t, j | 0 <= t < |stack| && 0 <= j < |cols|
        ensures |stack[t]| == |cols| && stack[t][j] == cols[j][t]
      {
        JoinColumns(cols, t);
      }
    } else if |cols| > 0 {
      assert !SameHeight(blocks);
    }
  }

  /** An element-wise transform that may fail: defined exactly when `f` is
      defined on every element, and then applies `f` to each one. */
  function Apply<T>(s: seq<T>, f: T -> Option<T>): (r: Option<seq<T>>)
    ensures r.Some? <==> forall i :: 0 <= i < |s| ==> f(s[i]).Some?
    ensures r.Some? ==> |r.value| == |s| && forall i :: 0 <= i < |s| ==> f(s[i]) == Some(r.value[i])
  {
    if s == [] then Some([])
    else match f(s[0])
      case None => None
      case Some(h) =>
        match Apply(s[1..], f)
        case None => None
        case Some(rest) => Some([h] + rest)
  }

  /** An element-wise total function. */
  function MapSeq<T>(s: seq<T>, g: T -> T): (r: seq<T>)
    ensures |r| == |s|
    ensures forall i :: 0 <= i < |s| ==> r[i] == g(s[i])
  {
    seq(|s|, i requires 0 <= i < |s| => g(s[i]))
  }

  /** A scalar transform lifted to cells: undefined on NaN (the transforms
      refuse series that contain missing values) and wherever `f` is. */
  function OnCell(f: Value -> Option<Value>): Cell -> Option<Cell>
  {
    (c: Cell) => if c.Some? && f(c.value).Some? then Some(Some(f(c.value).value)) else None
  }

  /** A scalar transform lifted to rows of an input block. */
  function OnRow(f: Value -> Option<Value>): Row -> Option<Row>
  {
    (r: Row) => Apply(r, OnCell(f))
  }

  /** A scalar inverse lifted to cells: NaN stays NaN. */
  function InverseCell(g: Value -> Value): Cell -> Cell
  {
    (c: Cell) => if c.Some? then Some(g(c.value)) else None
  }

  /** `g` undoes `f` wherever `f` is defined. */
  ghost predicate Inverts(f: Value -> Option<Value>, g: Value -> Value)
  {
    forall v :: f(v).Some? ==> g(f(v).value) == v
  }

  /** Inverting a successfully transformed series restores it exactly. */
  lemma TransformRoundTrip(s: Series, f: Value -> Option<Value>, g: Value -> Value)
    requires Inverts(f, g)
    requires Apply(s, OnCell(f)).Some?
    ensures MapSeq(Apply(s, OnCell(f)).value, InverseCell(g)) == s
  {
    var t := Apply(s, OnCell(f)).value;
    forall i | 0 <= i < |s|
      ensures InverseCell(g)(t[i]) == s[i]
    {
      assert OnCell(f)(s[i]) == Some(t[i]);
    }
  }

  /** An element-wise map commutes with dropping leading entries. */
  lemma MapFrom<T>(s: seq<T>, g: T -> T, k: int)
    ensures From(MapSeq(s, g), k) == MapSeq(From(s, k), g)
  {
    assert SliceIndex(|MapSeq(s, g)|, k) == SliceIndex(|s|, k);
  }
}
